=== FILE: README.md ===
# Transcriber core in Dafny

The transcriber is a desktop editor. The user records or imports speech and has it transcribed into words with timings. Text selected in the transcript, or a range dragged on the waveform, becomes a time span. That span can then be deleted or re-recorded in place. This project models the logic underneath the GUI and proves what it promises:

- **Edit engine** (`audio_editor.dfy`, `pcm.dfy`)
  - `seconds_to_frames` and `splice_audio`: one splice serves as replace, as delete (empty insert) and as append (a splice at the end).
  - The sample side of WAV export and import: the channel check, mono broadcast, and 16-bit PCM encode (clamp, scale by 32767, truncate) and decode.
- **Recorder** (`recorder.dfy`): the idle/recording machine. Flushes accumulate in order, `stop` ends the capture, and `float_to_int16` converts samples.
- **Waveform viewport** (`waveform.dfy`)
  - The `(view_start, view_dur?)` window and the clamp every gesture ends in.
  - Pixel/time conversion.
  - Wheel zoom and pan, pinch zoom, double-click reset, and the widget's `set_audio`/`set_cursor_time` resets.
- **Waveform rendering decisions** (`waveform_render.dfy`): the first-fit tick step, tick times and labels, first-fit word-label suppression at 40 px, and the max-absolute-sample envelope buckets.
- **Selection reconciliation** (`selection.dfy`): `_selection_to_time` over the word segments, and `on_waveform_selection`.
- **Session state machine** (`session.dfy`): the main window's handlers as pure functions over the window state.
  - `on_transcribe` with its placeholder fallback;
  - the selection handlers;
  - `_delete_selection`;
  - `on_record`/`on_stop`, including re-record arming and the append/replace/fresh choice;
  - `on_play`'s restart-near-end rule;
  - import, clear, and the deferred final transcription.
  - An invariant is proved to hold in every reachable state.

Modelling choices:

- Times and samples are `real`.
- Python's `round` is modelled exactly, ties going to the even neighbour (`Common.RoundHalfEven`). `int()` truncates toward zero (`Common.TruncToZero`).
- The speech recognizer is a function parameter. It maps the 16-bit codes and the sample rate of the WAV file it is handed to a result, or to `None` when it fails.
- Device availability is a flag. The collector thread's flushes arrive as arguments, in capture order.
- PCM encoding truncates toward zero (`astype(np.int16)`); it does not round.
- A take is always captured at the recorder's 44100 Hz. When it is appended to the session or spliced into it, the session's sample rate is kept, as `on_stop` does (app/main.py:467-498). A take spliced into a 48 kHz import is therefore re-timed; the model reproduces this on purpose.
- An import keeps the stored selection span of the previous audio, as `_load_audio_file` does. A following delete prefers that span (`Session.DeletePrefersStoredSpan`).
- `on_rerecord` is not connected to any signal in `_build_ui` (app/main.py:347-360), so the window never runs it. The `Rerecord` command of `Session.Step` models the handler as written, and the invariant covers it, but no user action reaches it.
- Wheel zoom requests a 0.05 s floor, but `_clamp_view` raises every window to at least `min(0.1, dur)`. `Waveform.WheelZoomFloorIsClampFloor` proves that 0.1 s is the effective floor.

## Model

| member | source | states |
|---|---|---|
| Common.RoundHalfEven | app/audio_editor.py:10 | Python `round`: the result is within 0.5 of the input, and an exact half goes to the even integer |
| Common.RoundHalfEvenMonotone | app/audio_editor.py:10 | rounding never reorders two times |
| Pcm.Encode | app/audio_editor.py:48-49 | a sample's code lies in [-32767, 32767], keeps the sample's sign, is 0 for silence, and is the clamped sample times 32767 truncated toward zero: never further from 0, and less than one unit away |
| Pcm.Decode | app/audio_editor.py:63 | every encodable code decodes into [-1, 1], and decoded value times 32767 gives the code back |
| Pcm.EncodeDecodeWithinStep | app/audio_editor.py:48-63 | encode then decode loses less than one quantisation step (1/32767) of the clamped sample |
| Pcm.DecodeEncodeIdentity | app/audio_editor.py:48-63 | every code in [-32767, 32767] survives decode then encode exactly |
| Pcm.MinInt16DecodesToClampedCode | app/audio_editor.py:63 | the file code -32768 decodes below -1 and so re-encodes as -32767 |
| Pcm.EncodeMonotone | app/audio_editor.py:48-49 | a larger sample never gets a smaller code |
| Pcm.EncodeAll | app/audio_editor.py:48-49 | buffer encoding preserves length, and each code is the encoding of the sample at the same index |
| Pcm.DecodeAll | app/audio_editor.py:63 | buffer decoding preserves length, and each sample is the decoding of the code at the same index |
| Pcm.SilenceRoundTrip | app/audio_editor.py:48-63 | silence encodes to all-zero codes and decodes back to the same silence |
| Pcm.DecodeEncodeAllIdentity | app/audio_editor.py:48-63 | a buffer of encodable codes survives decode then encode unchanged |
| AudioEditor.SecondsToFrames | app/audio_editor.py:9-10 | the frame index is never negative, and it is the rounded `seconds * rate` whenever that is non-negative |
| AudioEditor.SecondsToFramesNearest | app/audio_editor.py:9-10 | a time at or before 0 gives frame 0; otherwise the frame is within half a frame of `seconds * rate`, and an exact half goes to the even frame |
| AudioEditor.SecondsToFramesExact | app/audio_editor.py:9-10 | a time lying exactly on frame `f` converts back to `f` |
| AudioEditor.SecondsToFramesMonotone | app/audio_editor.py:9-10 | a later time never gives an earlier frame |
| AudioEditor.SpliceBounds | app/audio_editor.py:29-33 | for any pair of times, `0 <= start_idx <= end_idx <= len(base)`; an end before the start collapses to the start |
| AudioEditor.Splice | app/audio_editor.py:13-38 | the result has length `s + len(insert) + (len - e)`; it is the base's prefix up to `s`, then the insert, then the base from `e` on, index by index; the base is a value and is not changed |
| AudioEditor.SpliceEmptyIsIdentity | app/audio_editor.py:29-37 | an empty insert over an empty range gives back the base |
| AudioEditor.SpliceAtEndAppends | app/audio_editor.py:29-37 | a splice at or past the buffer's duration is exactly `base ++ insert` |
| AudioEditor.SpliceEmptyDeletes | app/audio_editor.py:29-37 | with an empty insert, exactly the frames `[s, e)` are removed |
| AudioEditor.SpliceBoundsExact | app/audio_editor.py:29-33 | times that lie on frames inside the buffer are used unchanged as indices |
| AudioEditor.SpliceSilenceScenario | app/audio_editor.py:13-38 | 10 s at 16 kHz with [2 s, 4 s) replaced by 1 s of silence leaves 9 s, with silence at [2 s, 3 s) |
| AudioEditor.WavFrames | app/audio_editor.py:41-49 | export fails exactly when 2-D audio's channel count differs from the requested one; mono audio is copied into every requested channel; every sample is PCM-encoded; the frame count is kept |
| AudioEditor.LoadSamples | app/audio_editor.py:57-66 | import divides every code by 32767; with more than one channel the samples are reshaped into frames of that width (it fails exactly when they do not divide evenly); flattening the frames gives back the decoded samples |
| AudioEditor.FlattenChunk | app/audio_editor.py:64-65 | reshaping into rows and flattening again is the identity |
| AudioEditor.LoadSaveStable | app/audio_editor.py:41-66 | importing a file's codes and exporting them with the same channel count reproduces the codes exactly |
| Recorder.Init | app/audio_recorder.py:21-28 | a new recorder is idle, has no buffer, and has the configured rate and channels |
| Recorder.Start | app/audio_recorder.py:40-50 | start fails exactly when no audio device is available; when already recording it changes nothing; otherwise it records with the buffer cleared |
| Recorder.AppendToBuffer | app/audio_recorder.py:70-75 | the buffer becomes the old buffer followed by the flushed chunks concatenated in order; the first flush just sets it |
| Recorder.FlushBatchingInvariant | app/audio_recorder.py:70-75 | two flushes leave the same buffer as one flush of all their chunks |
| Recorder.Stop | app/audio_recorder.py:77-88 | stop fails exactly when not recording; afterwards the recorder is idle; it returns the buffer plus the final flush, or an empty buffer when nothing was flushed, at the configured rate |
| Recorder.FlushAllBuffer | app/audio_recorder.py:52-75 | after any sequence of flushes, the buffer is the old one followed by all chunks in order |
| Recorder.TakeCapturesChunksInOrder | app/audio_recorder.py:40-88 | start, any flushes, then stop return exactly the chunks flushed since the start (the periodic flushes, then the final one), in order, at the recorder's rate |
| Recorder.FloatToInt16 | app/audio_recorder.py:90-93 | every code lies in [-32767, 32767] and is the clamped sample times 32767 truncated toward zero |
| Waveform.Duration | app/waveform_view.py:75-78 | the duration is never negative; it is 0 without audio or with a non-positive rate; otherwise duration times rate is the sample count |
| Waveform.VisibleRange | app/waveform_view.py:80-87 | the window is always within `[0, dur]`; it is the full range when no width is set, or the width is non-positive or covers the buffer; otherwise it has the set width and a clamped start |
| Waveform.ClampView | app/waveform_view.py:116-126 | the result is settled; with no audio or no width it is the full view; otherwise the width is `max(min(vd, dur), min(0.1, dur))`, raising a too-narrow window, and the start is `clip(start, 0, dur - width)` |
| Waveform.ClampViewFixedPoints | app/waveform_view.py:116-126 | the clamp leaves a view unchanged if and only if that view is already settled |
| Waveform.ClampViewIdempotent | app/waveform_view.py:116-126 | clamping twice is the same as clamping once |
| Waveform.SettledWindowIsVisible | app/waveform_view.py:80-87 | a settled window is exactly the range that is displayed |
| Waveform.TimeAtX | app/waveform_view.py:128-135 | the time is 0 with no audio; otherwise it lies in `[vs, vs + max(1e-9, ve - vs)]` |
| Waveform.TimeAtXRoundTrip | app/waveform_view.py:128-141 | for a widget at least one pixel wide, every pixel column `x` in `[0, w]` maps to a time that `_x_at_time` maps back to `x` |
| Waveform.TimeAtXMonotone | app/waveform_view.py:128-135 | a pixel further right never maps to an earlier time |
| Waveform.XAtTime | app/waveform_view.py:137-141 | the column is an integer in `[0, w]`; it is 0 at or before the window start and `w` at or past its end |
| Waveform.XAtTimeMonotone | app/waveform_view.py:137-141 | a later time never maps to a column further left |
| Waveform.Anchor | app/waveform_view.py:186-190 | before a zoom or pan, a full view is pinned to an explicit whole-buffer window, and what is displayed does not change |
| Waveform.ZoomAround | app/waveform_view.py:191-196 | a zoom ends settled, with width `max(clip(vd * factor, min(floor, dur), dur), min(0.1, dur))` |
| Waveform.ZoomKeepsCentre | app/waveform_view.py:191-196 | when the recentred window needs no clamping, the zoom centre keeps its relative place: `(c - start) / dur` after the zoom equals `(c - vs) / max(1e-9, vd)` before it |
| Waveform.WheelFactor | app/waveform_view.py:172-185 | the wheel zooms in (0.95) exactly when the vertical delta, or the horizontal one when there is no vertical delta, is positive, pixel deltas taking precedence over angle deltas; otherwise, a zero delta included, it zooms out (1.05) |
| Waveform.OnWheel | app/waveform_view.py:170-212 | wheel events do nothing without audio; otherwise both zoom and pan end in a settled, explicit window, and a zoom's width is `max(clip(vd * factor, min(0.05, dur), dur), min(0.1, dur))` for the wheel factor |
| Waveform.WheelZoomKeepsPointer | app/waveform_view.py:190-195 | a wheel zoom recentres on the time under the pointer: when no clamping is needed, that time keeps its relative place in the window |
| Waveform.WheelZoomFloorIsClampFloor | app/waveform_view.py:192-196 | although wheel zoom asks for a 0.05 s floor, no wheel zoom shows less than `min(0.1, dur)` |
| Waveform.WheelZoomDirection | app/waveform_view.py:183-196 | from a settled view, zooming in never widens the window and zooming out never narrows it |
| Waveform.WheelPanKeepsWidth | app/waveform_view.py:199-211 | panning a settled view only slides it; the width is kept |
| Waveform.PanStep | app/waveform_view.py:205-209 | the pan step is the window width times pixel delta / 300, or times angle delta / 4000 when there is no pixel delta; it has the delta's sign and is 0 exactly when both deltas are 0 |
| Waveform.WheelPanSlides | app/waveform_view.py:199-211 | a pan moves a settled window's start back by the pan step, stopping at 0 and at `dur - vd` |
| Waveform.PinchFactor | app/waveform_view.py:60-63 | the zoom factor is `1 / scale` for a positive scale and 1 otherwise; a scale of at least 1 never widens, and one in `(0, 1]` never narrows |
| Waveform.OnPinch | app/waveform_view.py:47-73 | a pinch does nothing without audio; otherwise it ends in a settled, explicit window of width `clip(vd / scale, min(0.1, dur), dur)` |
| Waveform.PinchKeepsCentre | app/waveform_view.py:63-69 | a pinch recentres on the time under the gesture centre (the widget's middle without one): when no clamping is needed, that time keeps its relative place in the window |
| Waveform.ZoomAroundDirection | app/waveform_view.py:64-71 | from a settled width, a zoom by a factor of at most 1 never widens the window and one of at least 1 never narrows it |
| Waveform.PinchZoomDirection | app/waveform_view.py:60-71 | from a settled view, spreading the fingers never widens the window and pinching them together never narrows it |
| Waveform.ZoomScenario | app/waveform_view.py:191-196 | zooming by 0.5 about 5 s on the 10 s window of a 20 s buffer gives a 5 s window from 2.5 s |
| Waveform.GesturesKeepViewSettled | app/waveform_view.py:116-218 | any sequence of wheel, pinch and double-click gestures keeps `0 <= start` and `start + dur <= total` |
| Waveform.SetAudio | app/waveform_view.py:89-100 | loading audio shows the new buffer and rate, puts the playhead at 0, drops the selection and resets to the full view |
| Waveform.SetCursorTime | app/waveform_view.py:107-109 | the playhead is `max(0, t)`, and nothing else changes |
| Waveform.OnDoubleClick | app/waveform_view.py:214-218 | a double-click resets only the viewport |
| Waveform.SetSelection | app/waveform_view.py:111-114 | the selection overlay takes the given ends, and nothing else changes |
| Waveform.SetTranscript | app/waveform_view.py:102-105 | the word overlay takes the given items, and nothing else changes |
| WaveformRender.TickStep | app/waveform_view.py:229-238 | at `w / max(1e-9, ve - vs)` pixels per second, the step is one of the ten candidates; it is the first whose ticks are at least 100 px apart, or 300 s when none is |
| WaveformRender.TickTimes | app/waveform_view.py:250-257 | ticks start at `max(0, ceil(vs/step)*step)` and go up by `step`; each lies in `[vs, ve + 1e-6]` and is non-negative; the next tick would lie past the end |
| WaveformRender.TickLabel | app/waveform_view.py:246-249 | a label is whole minutes plus seconds in `[0, 60)` that add back to `int(t)` |
| WaveformRender.WordLabels | app/waveform_view.py:282-301 | labels appear in word order; each is for a visible word, at that word's start column, highlighted exactly when the word overlaps the selection; successive labels are at least 40 px apart; a word is labelled exactly when it is visible and starts 40 px or more right of the last label drawn |
| WaveformRender.MaxAbs | app/waveform_view.py:272 | a bucket's bar is at least every absolute sample in the bucket, and equals one of them |
| WaveformRender.EnvelopeSlice | app/waveform_view.py:264-266 | the visible sample slice is `[int(vs*sr), int(ve*sr))`, clamped as Python slices clamp (both ends at most `n`, and an end before the start collapses to it) |
| WaveformRender.Envelope | app/waveform_view.py:259-280 | no bars without audio; with fewer visible samples than columns, one bar per sample; otherwise at least one bar per column; every bar is the absolute value of some visible sample |
| WaveformRender.Buckets | app/waveform_view.py:269-272 | there is one bar per whole bucket, and a trailing partial bucket is dropped; each bar is the largest absolute sample of its bucket |
| WaveformRender.BucketMax | app/waveform_view.py:271-272 | a bar is non-negative, at least every absolute sample in its bucket, and equal to one of them |
| Selection.ScanSegmentsSpec | app/main.py:616-623 | the segment walk takes its start from the first segment whose characters end after `start`, and its end from the first segment whose characters reach `end`; since `start < end`, the start is found no later than the end |
| Selection.SelectionToTime | app/main.py:606-628 | there is no span without a transcript or for an empty selection; otherwise the ordered ends map to the first segment past `start` (0 when none) and the first segment reaching `end` (the audio duration when none) |
| Selection.SelectionHasEndWithSession | app/main.py:626-627 | whenever session audio exists, a resolved span always has an end |
| Selection.HelloWorldScenario | app/main.py:616-628 | segments "hello" (0.0 s, 0.5 s, chars 0-5) and "world" (0.6 s, 0.5 s, chars 6-11) with selection [0, 11] give (0.0, 1.1) |
| Selection.WholeTextSelection | app/main.py:616-628 | selecting the whole text of ordered segments spans from the first word's start to the last word's end |
| Selection.WaveformSelection | app/main.py:690-695 | a zero-width drag clears the selection; any other drag is stored as `(min, max)` |
| Session.Recognized | app/main.py:544-553 | a failed or blank recognition becomes the "[no speaking detected]" placeholder; any other result is kept; the resulting text is never blank |
| Session.OnTranscribe | app/main.py:534-573 | nothing happens without a recognizer or a session; otherwise the session's 16-bit codes and sample rate are recognized; the transcript becomes the result or the placeholder; words reach the overlay only when there are some; nothing else changes |
| Session.WordItems | app/main.py:560-564 | one overlay item per segment, in order: its start, start plus duration, and text |
| Session.TranscriptNeverBlank | app/main.py:544-573 | after a transcription run the transcript text is never blank |
| Session.FinalTranscribeIfReady | app/main.py:519-521 | the deferred transcription runs only for a non-empty session |
| Session.OnFinalTimer | app/main.py:514-521 | each shot of the 150 ms timer consumes one pending shot; with a recognizer and a non-empty session it leaves a non-blank transcript, and otherwise nothing else changes |
| Session.OnSelectionChanged | app/main.py:630-636 | the stored span is the transcript selection's span; the waveform shows it when there is a session, and no selection otherwise |
| Session.OnWaveformSelection | app/main.py:690-695 | a drag sets only the stored span: cleared for zero width, otherwise `(min, max)` |
| Session.OnRerecord | app/main.py:638-645 | re-record is armed on the stored span only when there is a session and a stored span |
| Session.DeleteRange | app/main.py:709 | delete prefers the stored span over the transcript selection |
| Session.DeleteSelection | app/main.py:704-730 | delete does nothing without a session, without a span, or with `end <= start`; otherwise it removes exactly the span's frames, clears the selection, shows the shorter buffer in a full view, and puts the playhead at the span's start; with a recognizer, the transcript becomes the recognizer's reading of the shortened buffer; re-record arming, playback and pending timer shots are unchanged |
| Session.DeletePrefersStoredSpan | app/main.py:709 | with a stored span, the transcript selection does not affect a delete |
| Session.DeleteFrameRange | app/main.py:704-730 | deleting a stored span lying on frames `[s, e)` leaves `audio[:s] ++ audio[e:]` |
| Session.StopRerecord | app/main.py:452-482 | with re-record armed: if not recording, nothing changes; with no session or range, the clip is dropped and re-record disarmed; otherwise the clip (everything captured) replaces the armed span, re-record is disarmed, the waveform shows the spliced buffer in a full view with no selection and the playhead at the span's start, and, with a recognizer, the transcript becomes the recognizer's reading of the spliced buffer; the stored selection, playback and pending timer shots are unchanged |
| Session.Place | app/main.py:488-504 | a capture becomes the session when there is none or it is empty; it is appended when the playhead is within 50 ms of the end; otherwise it replaces the session |
| Session.AppendIsSpliceAtEnd | app/main.py:496-498 | the append that Stop performs equals a splice at the buffer's end |
| Session.StopPrimary | app/main.py:484-514 | without re-record, the capture ends and is placed; afterwards the recorder is idle, and the waveform shows the session in a full view with the playhead at its end; after an append the session is transcribed at once, and otherwise, with a session, one 150 ms timer shot is queued and the transcript is left for it; selection, re-record state and playback are unchanged |
| Session.OnStop | app/main.py:449-515 | playback always stops; armed re-record takes the re-record path, and otherwise the primary path runs |
| Session.OnRecord | app/main.py:422-443 | while recording, Record acts as Stop; otherwise a transcript selection arms re-record on its span, playback stops, and recording starts exactly when a device is available, with a cleared buffer |
| Session.OnFlush | app/audio_recorder.py:62-75 | while recording, flushed chunks are appended to the buffer in order; nothing else changes |
| Session.RecordFlushStopReplacesSelection | app/main.py:422-482 | Record with a transcript selection, flushes, then Stop: the captured chunks replace exactly the selected span, re-record is disarmed, and the recorder is idle |
| Session.OnPlay | app/main.py:647-655 | play starts from the playhead, or from 0 when the playhead is within 10 ms of the end |
| Session.PlayStartsAtPlayheadFrame | app/main.py:375-383 | for a non-empty buffer, playback starts at a frame strictly inside the buffer: the frame containing the playhead |
| Session.OnImport | app/main.py:741-752 | a readable file becomes the session (decoded samples, its rate), shown from 0 in a full view; with a recognizer the transcript is the recognition of the re-encoded samples at the file's rate, and without one the old transcript stays; the stored span, re-record arming, recorder, playing flag and pending timer shots are left as they were; an unreadable file changes nothing |
| Session.ImportRecognizesFileCodes | app/main.py:741-752 | when the file holds no -32768 code, the recognizer is handed exactly the file's codes |
| Session.OnClear | app/main.py:773-800 | clear does nothing with no content or without confirmation; otherwise it drops the session, transcript and selection, stops playback and capture, and shows an empty waveform; re-record arming is left as it was |
| Session.StepKeepsInv | app/main.py:422-800 | every handler keeps the invariant: positive rates; a transcript implies a session; the waveform shows the session; stored and armed spans have ends; the playhead is never negative |
| Session.AllStepsKeepInv | app/main.py:422-800 | from any state satisfying the invariant (the constructed window does, `InitialAppInv`), every sequence of handlers keeps it |
| Session.InitialAppInv | app/main.py:138-175 | the window as constructed satisfies the invariant |

## Left out

- File I/O: `wave.open`, the byte layout (`tobytes`/`frombuffer`) and temporary files. Only the per-sample arithmetic and the frame layout are modelled.
- float32 storage and IEEE rounding. Samples and times are reals, so `astype(np.float32)` copies are identities here.
- Threads and devices:
  - the sounddevice input and output streams, and the playback callback;
  - chunks still in the capture queue when stop is signalled. The collector exits without draining the queue, and `start` does not empty it. Those chunks are lost from the take and turn up at the front of the next one. The model's takes are exactly the flushed chunks (`Recorder.TakeCapturesChunksInOrder`);
  - the collector thread's queue, its one-second flush timer, and the 2 s join timeout. Flushes are arguments, and the final flush is the `pending` argument of stop.
- Multi-channel sessions. The app records mono. An imported file is modelled as mono samples, while multi-channel import and export are modelled only at the sample layer (`AudioEditor.LoadSamples`, `AudioEditor.WavFrames`).
- `Session.OnImport`: a WAV header declaring a frame rate of 0 is excluded by a precondition. The source would later divide by that rate.
- The recognizer bridge. Authorization, run-loop spinning and live taps are foreign calls; recognition is the `recognize` parameter.
- Qt plumbing:
  - painting calls, styles and icons;
  - message boxes, status texts and logging;
  - file dialogs and drag-and-drop (only `_load_audio_file`'s effect is modelled);
  - timers and the record indicator.
  - The deferred final transcription is a counter of pending timer shots (`pendingFinal`).
- Signal cascades. `setPlainText` may emit `cursorPositionChanged`, and that would re-run `on_selection_changed`. The transcript's character selection is an explicit argument instead.
- Mouse press/move/release in the waveform. They compute times with `TimeAtX` and emit the selection that `Session.OnWaveformSelection` receives; the drag bookkeeping itself is not modelled.
- Handlers outside the editing core:
  - `on_pause`, `on_skip_start`, `on_skip_end`, `on_scrub` and `on_timestamp_clicked`;
  - `on_export` and `on_open_logs`;
  - the playback timer tick.
- Session.OnPlay: assumes the sound library is present. Without it, `on_play` returns at once; this is device I/O.
- Session.IsBlank: treats only Latin-1 whitespace as blank. Python's `str.strip` also strips the other Unicode space separators.
- Session.OnClear: the capture stopped by clear is discarded, so its final flush is modelled as empty.
- Stale-transcription suppression: the code has none, so there is nothing to model.

=== FILE: audio_editor.dfy ===
/** The sample-buffer edit engine: time-to-frame conversion, the one splice
    that serves as replace, delete and append, and the sample-level side of
    WAV export and import (channel check, mono broadcast, PCM codes). */
module AudioEditor {
  import opened Common
  import Pcm

  /** `max(0, int(round(seconds * sample_rate)))`. */
  function SecondsToFrames(seconds: real, sampleRate: int): (n: nat)
    ensures RoundHalfEven(seconds * sampleRate as real) >= 0 ==> n == RoundHalfEven(seconds * sampleRate as real)
    ensures RoundHalfEven(seconds * sampleRate as real) < 0 ==> n == 0
  {
    MaxInt(0, RoundHalfEven(seconds * sampleRate as real))
  }

  /** The frame of a time is the frame nearest to `seconds * rate`, an exact
      half going to the even frame, and frame 0 for times at or before 0. */
  lemma SecondsToFramesNearest(seconds: real, sampleRate: int)
    ensures var x := seconds * sampleRate as real;
      var n := SecondsToFrames(seconds, sampleRate);
      && (x <= 0.0 ==> n == 0)
      && (x >= 0.0 ==> -0.5 <= n as real - x <= 0.5)
      && (x >= 0.0 && (n as real - x == 0.5 || x - n as real == 0.5) ==> n % 2 == 0)
  {
    var x := seconds * sampleRate as real;
    NearestFrame(x);
  }

  /** The same facts for a position `x` measured in frames. */
  lemma NearestFrame(x: real)
    ensures var n := MaxInt(0, RoundHalfEven(x));
      && (x <= 0.0 ==> n == 0)
      && (x >= 0.0 ==> -0.5 <= n as real - x <= 0.5)
      && (x >= 0.0 && (n as real - x == 0.5 || x - n as real == 0.5) ==> n % 2 == 0)
  {
    var r := RoundHalfEven(x);
    if x >= 0.0 && (r as real - x == 0.5 || x - r as real == 0.5) {
      assert x - x.Floor as real == 0.5;
    }
  }

  /** A time that lands exactly on a frame converts to that frame. */
  lemma SecondsToFramesExact(frame: nat, sampleRate: int)
    requires sampleRate > 0
    ensures SecondsToFrames(frame as real / sampleRate as real, sampleRate) == frame
  {
    assert frame as real / sampleRate as real * sampleRate as real == frame as real;
    RoundHalfEvenOfInt(frame);
  }

  /** Frame conversion never reorders times. */
  lemma SecondsToFramesMonotone(a: real, b: real, sampleRate: int)
    requires a <= b && sampleRate >= 0
    ensures SecondsToFrames(a, sampleRate) <= SecondsToFrames(b, sampleRate)
  {
    assert a * sampleRate as real <= b * sampleRate as real;
    RoundHalfEvenMonotone(a * sampleRate as real, b * sampleRate as real);
  }

  /** The clamped frame range `[s, e)` a splice over `[startSec, endSec)` replaces. */
  datatype Bounds = Bounds(s: nat, e: nat)

  function SpliceBounds(len: nat, sampleRate: int, startSec: real, endSec: real): (b: Bounds)
    ensures b.s <= b.e <= len
    ensures b.s == MinInt(SecondsToFrames(startSec, sampleRate), len)
    ensures b.e == MinInt(MaxInt(SecondsToFrames(endSec, sampleRate), b.s), len)
  {
    var s := MinInt(MaxInt(SecondsToFrames(startSec, sampleRate), 0), len);
    var e := MinInt(MaxInt(SecondsToFrames(endSec, sampleRate), s), len);
    Bounds(s, e)
  }

  /** `base[:s] ++ insert ++ base[e:]`, with frames of any shape `T`
      (a mono sample or a multi-channel row). */
  function Splice<T>(base: seq<T>, sampleRate: int, startSec: real, endSec: real, insert: seq<T>): (r: seq<T>)
    ensures var b := SpliceBounds(|base|, sampleRate, startSec, endSec);
      && |r| == b.s + |insert| + (|base| - b.e)
      && (forall i :: 0 <= i < b.s ==> r[i] == base[i])
      && (forall i :: 0 <= i < |insert| ==> r[b.s + i] == insert[i])
      && (forall i :: b.e <= i < |base| ==> r[b.s + |insert| + i - b.e] == base[i])
  {
    var b := SpliceBounds(|base|, sampleRate, startSec, endSec);
    base[..b.s] + insert + base[b.e..]
  }

  /** Splicing nothing over an empty range gives back the buffer itself. */
  lemma SpliceEmptyIsIdentity<T>(base: seq<T>, sampleRate: int, t: real)
    ensures Splice(base, sampleRate, t, t, []) == base
  {
    var b := SpliceBounds(|base|, sampleRate, t, t);
    assert b.s == b.e;
    assert base[..b.s] + base[b.e..] == base;
  }

  /** A splice at or past the end of the buffer is a plain append. */
  lemma SpliceAtEndAppends<T>(base: seq<T>, sampleRate: int, t: real, insert: seq<T>)
    requires sampleRate > 0
    requires t >= |base| as real / sampleRate as real
    ensures Splice(base, sampleRate, t, t, insert) == base + insert
  {
    var dur := |base| as real / sampleRate as real;
    SecondsToFramesExact(|base|, sampleRate);
    SecondsToFramesMonotone(dur, t, sampleRate);
    var b := SpliceBounds(|base|, sampleRate, t, t);
    assert b.s == |base| && b.e == |base|;
    assert base[..|base|] == base;
  }

  /** With an empty insert the splice deletes exactly frames `[s, e)`. */
  lemma SpliceEmptyDeletes<T>(base: seq<T>, sampleRate: int, startSec: real, endSec: real)
    ensures var b := SpliceBounds(|base|, sampleRate, startSec, endSec);
      Splice(base, sampleRate, startSec, endSec, []) == base[..b.s] + base[b.e..]
  {
  }

  /** Times that land on frames inside the buffer are used as given. */
  lemma SpliceBoundsExact(len: nat, sampleRate: int, s: nat, e: nat)
    requires sampleRate > 0 && s <= e <= len
    ensures SpliceBounds(len, sampleRate, s as real / sampleRate as real, e as real / sampleRate as real) == Bounds(s, e)
  {
    SecondsToFramesExact(s, sampleRate);
    SecondsToFramesExact(e, sampleRate);
  }

  /** Ten seconds at 16 kHz with [2 s, 4 s) replaced by one second of
      silence: nine seconds remain and [2 s, 3 s) is the silence. */
  lemma SpliceSilenceScenario(base: seq<real>, silence: seq<real>)
    requires |base| == 160000 && |silence| == 16000
    requires forall i :: 0 <= i < |silence| ==> silence[i] == 0.0
    ensures var r := Splice(base, 16000, 2.0, 4.0, silence);
      |r| == 144000 && (forall i :: 32000 <= i < 48000 ==> r[i] == 0.0)
  {
    SpliceBoundsExact(160000, 16000, 32000, 64000);
    assert 32000 as real / 16000 as real == 2.0;
    assert 64000 as real / 16000 as real == 4.0;
    var r := Splice(base, 16000, 2.0, 4.0, silence);
    forall i | 32000 <= i < 48000
      ensures r[i] == 0.0
    {
      assert r[32000 + (i - 32000)] == silence[i - 32000];
    }
  }

  // ---------------------------------------------------------------------------
  // WAV sample layer

  /** An audio array as numpy holds it: 1-D samples or a 2-D frames-by-channels
      array whose second dimension is `width`. */
  datatype Audio = Mono(samples: seq<real>) | Frames(rows: seq<seq<real>>, width: nat)
  {
    predicate WellShaped() {
      Frames? ==> forall i :: 0 <= i < |rows| ==> |rows[i]| == width
    }
    function FrameCount(): nat {
      if Mono? then |samples| else |rows|
    }
  }

  datatype WavError = ChannelMismatch | ReshapeError

  /** The PCM frames `save_wav` writes: mono broadcast to every channel when
      more than one is requested, a channel-count mismatch rejected, every
      sample encoded. Each inner sequence is one frame, in file order. */
  function WavFrames(audio: Audio, channels: int): (r: Result<seq<seq<int>>, WavError>)
    requires audio.WellShaped()
    ensures r.Err? <==> audio.Frames? && audio.width != channels
    ensures r.Ok? ==> |r.value| == audio.FrameCount()
    ensures r.Ok? && audio.Mono? && channels > 1 ==>
      forall i :: 0 <= i < |r.value| ==>
        |r.value[i]| == channels && forall c :: 0 <= c < channels ==> r.value[i][c] == Pcm.Encode(audio.samples[i])
    ensures r.Ok? && audio.Mono? && channels <= 1 ==>
      forall i :: 0 <= i < |r.value| ==> r.value[i] == [Pcm.Encode(audio.samples[i])]
    ensures r.Ok? && audio.Frames? ==>
      forall i :: 0 <= i < |r.value| ==> r.value[i] == Pcm.EncodeAll(audio.rows[i])
  {
    match audio
    case Mono(xs) =>
      if channels > 1 then
        Ok(seq(|xs|, i requires 0 <= i < |xs| => seq(channels, c => Pcm.Encode(xs[i]))))
      else
        Ok(seq(|xs|, i requires 0 <= i < |xs| => [Pcm.Encode(xs[i])]))
    case Frames(rows, width) =>
      if width != channels then Err(ChannelMismatch)
      else Ok(seq(|rows|, i requires 0 <= i < |rows| => Pcm.EncodeAll(rows[i])))
  }

  /** Row-major concatenation (`tobytes` order). */
  function Flatten<T>(rows: seq<seq<T>>): (r: seq<T>)
  {
    if |rows| == 0 then [] else rows[0] + Flatten(rows[1..])
  }

  /** numpy's `reshape(count, width)` of a buffer holding `count * width` items. */
  function Chunk<T>(xs: seq<T>, width: nat, count: nat): (rows: seq<seq<T>>)
    requires |xs| == count * width
    ensures |rows| == count
    ensures forall i :: 0 <= i < |rows| ==> |rows[i]| == width
    decreases count
  {
    if count == 0 then []
    else
      assert count * width == (count - 1) * width + width;
      [xs[..width]] + Chunk(xs[width..], width, count - 1)
  }

  lemma {:induction false} FlattenChunk<T>(xs: seq<T>, width: nat, count: nat)
    requires |xs| == count * width
    ensures Flatten(Chunk(xs, width, count)) == xs
    decreases count
  {
    if count > 0 {
      assert count * width == (count - 1) * width + width;
      FlattenChunk(xs[width..], width, count - 1);
      assert Chunk(xs, width, count)[1..] == Chunk(xs[width..], width, count - 1);
      assert xs[..width] + xs[width..] == xs;
    }
  }

  /** The sample side of `load_wav`: interleaved codes divided by 32767, then
      reshaped into frames when there is more than one channel. */
  function LoadSamples(codes: seq<int>, channels: int): (r: Result<Audio, WavError>)
    ensures r.Err? <==> channels > 1 && |codes| % channels != 0
    ensures r.Ok? ==> r.value.WellShaped()
    ensures r.Ok? && channels <= 1 ==> r.value == Audio.Mono(Pcm.DecodeAll(codes))
    ensures r.Ok? && channels > 1 ==>
      r.value.Frames? && r.value.width == channels && Flatten(r.value.rows) == Pcm.DecodeAll(codes)
  {
    var xs := Pcm.DecodeAll(codes);
    if channels > 1 then
      if |codes| % channels != 0 then Err(ReshapeError)
      else
        var count := |codes| / channels;
        assert |xs| == count * channels;
        FlattenChunk(xs, channels, count);
        Ok(Frames(Chunk(xs, channels, count), channels))
    else Ok(Mono(xs))
  }

  lemma {:induction false} FlattenEncodeRows(rows: seq<seq<real>>)
    ensures Flatten(seq(|rows|, i requires 0 <= i < |rows| => Pcm.EncodeAll(rows[i]))) == Pcm.EncodeAll(Flatten(rows))
    decreases |rows|
  {
    var enc := seq(|rows|, i requires 0 <= i < |rows| => Pcm.EncodeAll(rows[i]));
    if |rows| > 0 {
      FlattenEncodeRows(rows[1..]);
      assert enc[1..] == seq(|rows[1..]|, i requires 0 <= i < |rows[1..]| => Pcm.EncodeAll(rows[1..][i]));
      assert Pcm.EncodeAll(rows[0] + Flatten(rows[1..])) == Pcm.EncodeAll(rows[0]) + Pcm.EncodeAll(Flatten(rows[1..]));
    }
  }

  /** Reading a file's codes and writing them back with the same channel
      count reproduces the codes exactly, for every code the encoder can
      produce. */
  lemma LoadSaveStable(codes: seq<int>, channels: int)
    requires forall i :: 0 <= i < |codes| ==> Pcm.IsCode(codes[i])
    requires channels >= 1 && |codes| % channels == 0
    ensures LoadSamples(codes, channels).Ok?
    ensures WavFrames(LoadSamples(codes, channels).value, channels).Ok?
    ensures Flatten(WavFrames(LoadSamples(codes, channels).value, channels).value) == codes
  {
    var a := LoadSamples(codes, channels).value;
    var w := WavFrames(a, channels).value;
    Pcm.DecodeEncodeAllIdentity(codes);
    if channels > 1 {
      FlattenEncodeRows(a.rows);
    } else {
      MonoFramesFlatten(Pcm.DecodeAll(codes), w);
    }
  }

  lemma {:induction false} MonoFramesFlatten(xs: seq<real>, w: seq<seq<int>>)
    requires |w| == |xs| && forall i :: 0 <= i < |w| ==> w[i] == [Pcm.Encode(xs[i])]
    ensures Flatten(w) == Pcm.EncodeAll(xs)
    decreases |xs|
  {
    if |xs| > 0 {
      MonoFramesFlatten(xs[1..], w[1..]);
    }
  }
}

=== FILE: common.dfy ===
/** Small shared vocabulary: optional values, results, and the real-number
    helpers (clamping, Python's `round` and `int()`) the editor, the viewport
    and the recorder all rely on. */
module Common {

  datatype Option<+T> = None | Some(value: T) {
    function GetOr(default: T): T {
      match this
      case Some(v) => v
      case None => default
    }
  }

  datatype Result<+R, +E> = Ok(value: R) | Err(error: E)

  function Min(a: real, b: real): real { if a <= b then a else b }
  function Max(a: real, b: real): real { if a >= b then a else b }
  function MinInt(a: int, b: int): int { if a <= b then a else b }
  function MaxInt(a: int, b: int): int { if a >= b then a else b }
  function Abs(x: real): real { if x >= 0.0 then x else -x }

  /** numpy's `clip(x, lo, hi)`: `minimum(maximum(x, lo), hi)`. */
  function Clip(x: real, lo: real, hi: real): (r: real)
    ensures lo <= hi ==> lo <= r <= hi
    ensures lo <= x <= hi ==> r == x
    ensures r <= hi
  {
    Min(Max(x, lo), hi)
  }

  /** Python's `int(x)` on a float: truncation toward zero. */
  function TruncToZero(x: real): (r: int)
    ensures x >= 0.0 ==> 0 <= r && r as real <= x < r as real + 1.0
    ensures x < 0.0 ==> x <= r as real <= 0.0 && r as real - 1.0 < x
  {
    if x >= 0.0 then x.Floor else -((-x).Floor)
  }

  /** numpy's `ceil` on reals. */
  function Ceil(x: real): (r: int)
    ensures x <= r as real < x + 1.0
  {
    -((-x).Floor)
  }

  /** Python's `round(x)`: nearest integer, ties to the even neighbour. */
  function RoundHalfEven(x: real): (r: int)
    ensures (r as real - x) <= 0.5 && (x - r as real) <= 0.5
    ensures x - x.Floor as real == 0.5 ==> r % 2 == 0
  {
    var f := x.Floor;
    var d := x - f as real;
    if d < 0.5 then f
    else if d > 0.5 then f + 1
    else if f % 2 == 0 then f else f + 1
  }

  lemma TruncToZeroMonotone(x: real, y: real)
    requires 0.0 <= x <= y
    ensures TruncToZero(x) <= TruncToZero(y)
  {
  }

  /** Rounding never reorders its inputs, and integers round to themselves. */
  lemma RoundHalfEvenMonotone(x: real, y: real)
    requires x <= y
    ensures RoundHalfEven(x) <= RoundHalfEven(y)
  {
    if x.Floor < y.Floor {
      assert x.Floor + 1 <= y.Floor;
    }
  }

  lemma RoundHalfEvenOfInt(n: int)
    ensures RoundHalfEven(n as real) == n
  {
  }

  // Ordered-field facts the solver does not find on its own inside larger goals.

  lemma MulLeMono(a: real, b: real, c: real)
    requires a <= b && c >= 0.0
    ensures a * c <= b * c
  {
  }

  lemma DivLeMono(a: real, b: real, c: real)
    requires a <= b && c > 0.0
    ensures a / c <= b / c
  {
    assert b / c - a / c == (b - a) / c;
  }

  lemma MulLeDiv(a: real, b: real, c: real)
    requires c > 0.0 && a * c <= b
    ensures a <= b / c
  {
    var q := b / c;
    assert q * c == b;
    if a > q {
      assert (a - q) * c > 0.0;
    }
  }

  lemma MulDivCancel(a: real, b: real)
    requires b != 0.0
    ensures (a * b) / b == a
  {
    var q := (a * b) / b;
    assert q * b == a * b;
    assert (q - a) * b == 0.0;
  }

  /** A fraction of a non-negative span stays within the span. */
  lemma FractionOfSpan(pos: real, span: real)
    requires 0.0 <= pos <= 1.0 && span >= 0.0
    ensures 0.0 <= pos * span <= span
  {
    MulLeMono(pos, 1.0, span);
    MulLeMono(0.0, pos, span);
  }

  /** The point a fraction `pos` of the way along `[lo, lo + span]`. */
  function PointInSpan(lo: real, pos: real, span: real): (t: real)
    requires 0.0 <= pos <= 1.0 && span >= 0.0
    ensures lo <= t <= lo + span
  {
    FractionOfSpan(pos, span);
    lo + pos * span
  }

  lemma PointInSpanMonotone(lo: real, p1: real, p2: real, span: real)
    requires 0.0 <= p1 <= p2 <= 1.0 && span >= 0.0
    ensures PointInSpan(lo, p1, span) <= PointInSpan(lo, p2, span)
  {
    MulLeMono(p1, p2, span);
    var a := p1 * span;
    var b := p2 * span;
    assert a <= b;
    assert lo + a <= lo + b;
    assert PointInSpan(lo, p1, span) == lo + a;
    assert PointInSpan(lo, p2, span) == lo + b;
  }

  /** `clip(num / den, 0, 1)` for a positive `den`. */
  function UnitFraction(num: real, den: real): (pos: real)
    requires den > 0.0
    ensures 0.0 <= pos <= 1.0
    ensures num <= 0.0 ==> pos == 0.0
    ensures num >= den ==> pos == 1.0
  {
    if num <= 0.0 then
      DivLeMono(num, 0.0, den);
      0.0
    else if num >= den then
      DivLeMono(den, num, den);
      assert den / den == 1.0;
      1.0
    else
      Clip(num / den, 0.0, 1.0)
  }

  /** `UnitFraction` recovers a fraction of its span. */
  lemma UnitFractionOfFraction(f: real, span: real)
    requires 0.0 <= f <= 1.0 && span > 0.0
    ensures UnitFraction(f * span, span) == f
  {
    MulDivCancel(f, span);
    if 0.0 < f < 1.0 {
      MulLeMono(f, 1.0, span);
      assert f * span != span by {
        assert (1.0 - f) * span > 0.0;
      }
    }
  }

  lemma UnitFractionAt(d: real, f: real, span: real)
    requires 0.0 <= f <= 1.0 && span > 0.0 && d == f * span
    ensures UnitFraction(d, span) == f
  {
    UnitFractionOfFraction(f, span);
  }

  lemma UnitFractionMonotone(n1: real, n2: real, den: real)
    requires n1 <= n2 && den > 0.0
    ensures UnitFraction(n1, den) <= UnitFraction(n2, den)
  {
    DivLeMono(n1, n2, den);
  }

  /** `int(pos * w)`: a fraction of a `w`-pixel width as a pixel column. */
  function PixelOf(pos: real, w: int): (x: int)
    requires 0.0 <= pos <= 1.0
    ensures w >= 0 ==> 0 <= x <= w
    ensures pos == 0.0 ==> x == 0
    ensures pos == 1.0 ==> x == w
  {
    if w >= 0 then
      FractionOfSpan(pos, w as real);
      TruncToZero(pos * w as real)
    else
      TruncToZero(pos * w as real)
  }

  /** The column `x` of `w` as a fraction converts back to `x`. */
  lemma PixelOfColumn(x: int, w: int)
    requires 1 <= w && 0 <= x <= w
    ensures 0.0 <= x as real / w as real <= 1.0
    ensures PixelOf(x as real / w as real, w) == x
  {
    DivLeMono(0.0, x as real, w as real);
    DivLeMono(x as real, w as real, w as real);
    assert w as real / w as real == 1.0;
    var f := x as real / w as real;
    assert f * w as real == x as real;
  }

  lemma PixelOfMonotone(p1: real, p2: real, w: int)
    requires 0.0 <= p1 <= p2 <= 1.0 && w >= 0
    ensures PixelOf(p1, w) <= PixelOf(p2, w)
  {
    MulLeMono(p1, p2, w as real);
    FractionOfSpan(p1, w as real);
    TruncToZeroMonotone(p1 * w as real, p2 * w as real);
  }
}

=== FILE: pcm.dfy ===
/** The per-sample 16-bit PCM arithmetic shared by WAV export, WAV import and
    the recorder: clamp to [-1, 1], scale by 32767, truncate toward zero; and
    back by dividing by 32767. */
module Pcm {
  import opened Common

  const FullScale: real := 32767.0

  predicate InInt16(k: int) { -32768 <= k <= 32767 }

  /** A code that the encoder can produce (note: -32768 is not one). */
  predicate IsCode(k: int) { -32767 <= k <= 32767 }

  /** `(clip(x, -1, 1) * 32767).astype(int16)`. */
  function Encode(x: real): (k: int)
    ensures IsCode(k) && InInt16(k)
    ensures x >= 0.0 ==> 0 <= k && k as real <= Clip(x, -1.0, 1.0) * FullScale
    ensures x <= 0.0 ==> k <= 0 && Clip(x, -1.0, 1.0) * FullScale <= k as real
    ensures x == 0.0 ==> k == 0
    ensures Abs(Clip(x, -1.0, 1.0) * FullScale - k as real) < 1.0
  {
    TruncToZero(Clip(x, -1.0, 1.0) * FullScale)
  }

  /** `k.astype(float32) / 32767`. */
  function Decode(k: int): (x: real)
    ensures IsCode(k) ==> -1.0 <= x <= 1.0
    ensures x * FullScale == k as real
  {
    k as real / FullScale
  }

  /** Encoding loses less than one quantisation step of the clamped value. */
  lemma EncodeDecodeWithinStep(x: real)
    ensures Abs(Decode(Encode(x)) - Clip(x, -1.0, 1.0)) < 1.0 / FullScale
  {
    var c := Clip(x, -1.0, 1.0);
    var k := Encode(x);
    assert Abs(c * FullScale - k as real) < 1.0;
    assert Decode(k) - c == (k as real - c * FullScale) / FullScale;
  }

  /** Every code the encoder produces survives decode-then-encode exactly. */
  lemma DecodeEncodeIdentity(k: int)
    requires IsCode(k)
    ensures Encode(Decode(k)) == k
  {
    var x := Decode(k);
    assert Clip(x, -1.0, 1.0) == x;
    assert x * FullScale == k as real;
  }

  /** The one int16 value outside the encoder's range comes back one step up. */
  lemma MinInt16DecodesToClampedCode()
    ensures Encode(Decode(-32768)) == -32767
  {
    assert Decode(-32768) < -1.0;
    assert Clip(Decode(-32768), -1.0, 1.0) == -1.0;
  }

  /** Larger samples never get smaller codes. */
  lemma EncodeMonotone(x: real, y: real)
    requires x <= y
    ensures Encode(x) <= Encode(y)
  {
    var cx := Clip(x, -1.0, 1.0) * FullScale;
    var cy := Clip(y, -1.0, 1.0) * FullScale;
    assert cx <= cy;
    if cx >= 0.0 {
      TruncToZeroMonotone(cx, cy);
    } else if cy < 0.0 {
      TruncToZeroMonotone(-cy, -cx);
    }
  }

  /** Element-wise encoding of a buffer. */
  function EncodeAll(xs: seq<real>): (ks: seq<int>)
    ensures |ks| == |xs|
    ensures forall i :: 0 <= i < |xs| ==> ks[i] == Encode(xs[i]) && IsCode(ks[i])
  {
    seq(|xs|, i requires 0 <= i < |xs| => Encode(xs[i]))
  }

  /** Element-wise decoding of a buffer. */
  function DecodeAll(ks: seq<int>): (xs: seq<real>)
    ensures |xs| == |ks|
    ensures forall i :: 0 <= i < |ks| ==> xs[i] == Decode(ks[i])
  {
    seq(|ks|, i requires 0 <= i < |ks| => Decode(ks[i]))
  }

  /** A buffer of silence encodes to zero codes and decodes back to silence. */
  lemma SilenceRoundTrip(xs: seq<real>)
    requires forall i :: 0 <= i < |xs| ==> xs[i] == 0.0
    ensures forall i :: 0 <= i < |xs| ==> EncodeAll(xs)[i] == 0
    ensures DecodeAll(EncodeAll(xs)) == xs
  {
  }

  lemma DecodeEncodeAllIdentity(ks: seq<int>)
    requires forall i :: 0 <= i < |ks| ==> IsCode(ks[i])
    ensures EncodeAll(DecodeAll(ks)) == ks
  {
    forall i | 0 <= i < |ks|
      ensures EncodeAll(DecodeAll(ks))[i] == ks[i]
    {
      DecodeEncodeIdentity(ks[i]);
    }
  }
}

=== FILE: recorder.dfy ===
/** The capture recorder as a two-state machine (idle / streaming) over the
    flushed sample buffer. The device stream, the collector thread and its
    queue are outside the model: the collector's flushes arrive as batches of
    chunks, in the order the device produced them. */
module Recorder {
  import opened Common
  import Pcm
  import AudioEditor

  datatype Recorder<F> = Recorder(sampleRate: int, channels: int, streaming: bool, buffer: Option<seq<F>>)
  {
    /** `is_recording`: a stream is held. */
    predicate IsRecording() { streaming }
  }

  datatype RecorderError = DeviceUnavailable | NotActive

  /** A fresh recorder holds no stream and no buffer. */
  function Init<F>(sampleRate: int, channels: int): (r: Recorder<F>)
    ensures !r.IsRecording() && r.buffer.None?
    ensures r.sampleRate == sampleRate && r.channels == channels
  {
    Recorder(sampleRate, channels, false, None)
  }

  /** `start`: fails without an audio device, does nothing while already
      recording, and otherwise drops the previous buffer and starts streaming. */
  function Start<F>(r: Recorder<F>, deviceAvailable: bool): (res: Result<Recorder<F>, RecorderError>)
    ensures res.Err? <==> !deviceAvailable
    ensures res.Err? ==> res.error == DeviceUnavailable
    ensures res.Ok? && r.IsRecording() ==> res.value == r
    ensures res.Ok? ==> res.value.IsRecording()
    ensures res.Ok? && !r.IsRecording() ==> res.value.buffer.None?
    ensures res.Ok? ==> res.value.sampleRate == r.sampleRate && res.value.channels == r.channels
  {
    if !deviceAvailable then Err(DeviceUnavailable)
    else if r.streaming then Ok(r)
    else Ok(r.(streaming := true, buffer := None))
  }

  /** `_append_to_buffer`: the chunks, concatenated in order, go after
      whatever was already flushed; the first flush just sets the buffer. */
  function AppendToBuffer<F>(r: Recorder<F>, chunks: seq<seq<F>>): (r': Recorder<F>)
    requires |chunks| > 0
    ensures r'.buffer == Some(r.buffer.GetOr([]) + AudioEditor.Flatten(chunks))
    ensures r.buffer.None? ==> r'.buffer == Some(AudioEditor.Flatten(chunks))
    ensures r'.streaming == r.streaming && r'.sampleRate == r.sampleRate && r'.channels == r.channels
  {
    var chunk := AudioEditor.Flatten(chunks);
    match r.buffer
    case None => assert [] + chunk == chunk; r.(buffer := Some(chunk))
    case Some(b) => r.(buffer := Some(b + chunk))
  }

  lemma {:induction false} FlattenAppend<F>(a: seq<seq<F>>, b: seq<seq<F>>)
    ensures AudioEditor.Flatten(a + b) == AudioEditor.Flatten(a) + AudioEditor.Flatten(b)
    decreases |a|
  {
    if |a| > 0 {
      assert (a + b)[1..] == a[1..] + b;
      FlattenAppend(a[1..], b);
    } else {
      assert a + b == b;
    }
  }

  /** How often the collector flushes does not matter: two flushes leave
      the same buffer as one flush of all their chunks. */
  lemma FlushBatchingInvariant<F>(r: Recorder<F>, a: seq<seq<F>>, b: seq<seq<F>>)
    requires |a| > 0 && |b| > 0
    ensures AppendToBuffer(AppendToBuffer(r, a), b) == AppendToBuffer(r, a + b)
  {
    FlattenAppend(a, b);
    var fa := AudioEditor.Flatten(a);
    var fb := AudioEditor.Flatten(b);
    assert r.buffer.GetOr([]) + fa + fb == r.buffer.GetOr([]) + (fa + fb);
  }

  /** What `stop` hands back: the recorder afterwards, the audio, its rate. */
  datatype Capture<F> = Capture(recorder: Recorder<F>, audio: seq<F>, sampleRate: int)

  /** `stop`: fails when not recording; otherwise ends the stream, lets the
      collector make its final flush of `pending`, and returns the buffer, or
      an empty one at the configured rate when nothing was flushed. */
  function Stop<F>(r: Recorder<F>, pending: seq<seq<F>>): (res: Result<Capture<F>, RecorderError>)
    ensures res.Err? <==> !r.IsRecording()
    ensures res.Err? ==> res.error == NotActive
    ensures res.Ok? ==> !res.value.recorder.IsRecording()
    ensures res.Ok? ==> res.value.sampleRate == r.sampleRate
    ensures res.Ok? ==> res.value.audio == r.buffer.GetOr([]) + AudioEditor.Flatten(pending)
    ensures res.Ok? && r.buffer.None? && |pending| == 0 ==> res.value.audio == []
  {
    if !r.streaming then Err(NotActive)
    else
      var flushed := if |pending| > 0 then AppendToBuffer(r, pending) else r;
      var stopped := flushed.(streaming := false);
      Ok(Capture(stopped, flushed.buffer.GetOr([]), r.sampleRate))
  }

  /** The collector's flushes, in order; every flush carries at least one chunk. */
  function FlushAll<F>(r: Recorder<F>, batches: seq<seq<seq<F>>>): (r': Recorder<F>)
    requires forall i :: 0 <= i < |batches| ==> |batches[i]| > 0
    decreases |batches|
  {
    if |batches| == 0 then r else FlushAll(AppendToBuffer(r, batches[0]), batches[1..])
  }

  lemma {:induction false} FlushAllBuffer<F>(r: Recorder<F>, batches: seq<seq<seq<F>>>)
    requires forall i :: 0 <= i < |batches| ==> |batches[i]| > 0
    ensures FlushAll(r, batches).streaming == r.streaming
    ensures FlushAll(r, batches).sampleRate == r.sampleRate
    ensures |batches| > 0 ==>
      FlushAll(r, batches).buffer == Some(r.buffer.GetOr([]) + AudioEditor.Flatten(AudioEditor.Flatten(batches)))
    ensures |batches| == 0 ==> FlushAll(r, batches) == r
    decreases |batches|
  {
    if |batches| > 0 {
      var r1 := AppendToBuffer(r, batches[0]);
      var rest := batches[1..];
      FlushAllBuffer(r1, rest);
      var b := r.buffer.GetOr([]);
      var f0 := AudioEditor.Flatten(batches[0]);
      assert AudioEditor.Flatten(batches) == batches[0] + AudioEditor.Flatten(rest);
      FlattenAppend(batches[0], AudioEditor.Flatten(rest));
      if |rest| == 0 {
        assert AudioEditor.Flatten(rest) == [];
        assert batches[0] + [] == batches[0];
        assert f0 + [] == f0;
      } else {
        assert b + f0 + AudioEditor.Flatten(AudioEditor.Flatten(rest)) == b + (f0 + AudioEditor.Flatten(AudioEditor.Flatten(rest)));
      }
    }
  }

  /** A whole take: starting, any number of flushes and a final stop yield
      exactly the chunks flushed since the start, in flush order. Chunks the
      collector never took from its queue are not part of it. */
  lemma TakeCapturesChunksInOrder<F>(r: Recorder<F>, batches: seq<seq<seq<F>>>, pending: seq<seq<F>>)
    requires !r.IsRecording()
    requires forall i :: 0 <= i < |batches| ==> |batches[i]| > 0
    ensures var started := Start(r, true).value;
      var res := Stop(FlushAll(started, batches), pending);
      res.Ok? && res.value.audio == AudioEditor.Flatten(AudioEditor.Flatten(batches)) + AudioEditor.Flatten(pending)
        && res.value.sampleRate == r.sampleRate && !res.value.recorder.IsRecording()
  {
    var started := Start(r, true).value;
    assert started.buffer.None? && started.IsRecording() && started.sampleRate == r.sampleRate;
    var flushed := FlushAll(started, batches);
    FlushAllBuffer(started, batches);
    var ff := AudioEditor.Flatten(AudioEditor.Flatten(batches));
    if |batches| == 0 {
      assert AudioEditor.Flatten(batches) == [];
      assert flushed.buffer.GetOr([]) == [] == ff;
    } else {
      assert flushed.buffer == Some([] + ff);
      assert [] + ff == ff;
    }
    assert flushed.buffer.GetOr([]) == ff;
    assert flushed.IsRecording();
  }

  /** `float_to_int16`: clamp to [-1, 1], scale by 32767, truncate. */
  function FloatToInt16(audio: seq<real>): (codes: seq<int>)
    ensures |codes| == |audio|
    ensures forall i :: 0 <= i < |audio| ==>
      -32767 <= codes[i] <= 32767
      && Abs(Clip(audio[i], -1.0, 1.0) * 32767.0 - codes[i] as real) < 1.0
      && (audio[i] >= 0.0 ==> 0 <= codes[i] && codes[i] as real <= Clip(audio[i], -1.0, 1.0) * 32767.0)
      && (audio[i] <= 0.0 ==> codes[i] <= 0 && Clip(audio[i], -1.0, 1.0) * 32767.0 <= codes[i] as real)
  {
    Pcm.EncodeAll(audio)
  }
}

=== FILE: selection.dfy ===
/** Selection reconciliation: a character selection in the transcript, or a
    drag on the waveform, resolved to a time span over the audio. */
module Selection {
  import opened Common
  import opened Transcript

  /** A resolved selection. `end` is absent only when the transcript runs
      out before the selection does and there is no session audio to run to. */
  datatype Span = Span(start: real, end: Option<real>)

  /** The two times the segment walk has fixed so far. */
  datatype Scan = Scan(startT: Option<real>, endT: Option<real>)

  /** The walk of `_selection_to_time`: the first segment whose characters
      end after `start` fixes the start time, the first whose characters
      reach `end` fixes the end time and stops the walk. */
  function ScanSegments(segs: seq<WordSegment>, start: int, end: int, startT: Option<real>): Scan
    decreases |segs|
  {
    if |segs| == 0 then Scan(startT, None)
    else
      var seg := segs[0];
      var st := if startT.None? && start < seg.CharEnd() then Some(seg.startSec) else startT;
      if end <= seg.CharEnd() then Scan(st, Some(seg.EndSec()))
      else ScanSegments(segs[1..], start, end, st)
  }

  /** Segment `k` is the first whose characters reach offset `c`. */
  predicate FirstReaching(segs: seq<WordSegment>, c: int, k: int) {
    0 <= k < |segs| && c <= segs[k].CharEnd() && forall j :: 0 <= j < k ==> segs[j].CharEnd() < c
  }

  /** Segment `k` is the first whose characters end after offset `c`. */
  predicate FirstPast(segs: seq<WordSegment>, c: int, k: int) {
    0 <= k < |segs| && c < segs[k].CharEnd() && forall j :: 0 <= j < k ==> segs[j].CharEnd() <= c
  }

  /** The walk computes the first-match definitions; the start time is
      always fixed before the walk stops because `start < end`. */
  lemma {:induction false} ScanSegmentsSpec(segs: seq<WordSegment>, start: int, end: int, startT: Option<real>)
    requires start < end
    ensures var r := ScanSegments(segs, start, end, startT);
      && (forall k :: FirstReaching(segs, end, k) ==> r.endT == Some(segs[k].EndSec()))
      && ((forall k :: 0 <= k < |segs| ==> segs[k].CharEnd() < end) ==> r.endT.None?)
      && (startT.Some? ==> r.startT == startT)
      && (startT.None? ==> forall k :: FirstPast(segs, start, k) ==> r.startT == Some(segs[k].startSec))
      && (startT.None? && (forall k :: 0 <= k < |segs| ==> segs[k].CharEnd() <= start) ==> r.startT.None?)
    decreases |segs|
  {
    if |segs| > 0 {
      var seg := segs[0];
      var st := if startT.None? && start < seg.CharEnd() then Some(seg.startSec) else startT;
      var tail := segs[1..];
      if end > seg.CharEnd() {
        ScanSegmentsSpec(tail, start, end, st);
        forall k | FirstReaching(segs, end, k)
          ensures FirstReaching(tail, end, k - 1)
        {
          assert k != 0;
          forall j | 0 <= j < k - 1 ensures tail[j].CharEnd() < end {
            assert tail[j] == segs[j + 1];
          }
        }
        if startT.None? && st.None? {
          forall k | FirstPast(segs, start, k)
            ensures FirstPast(tail, start, k - 1)
          {
            assert k != 0;
            forall j | 0 <= j < k - 1 ensures tail[j].CharEnd() <= start {
              assert tail[j] == segs[j + 1];
            }
          }
        }
        if startT.None? && st.Some? {
          forall k | FirstPast(segs, start, k) ensures k == 0 { }
        }
      } else {
        forall k | FirstReaching(segs, end, k) ensures k == 0 { }
        if startT.None? {
          assert start < seg.CharEnd();
          forall k | FirstPast(segs, start, k) ensures k == 0 { }
        }
      }
    }
  }

  /** `_selection_to_time`: no span without a transcript or for an empty
      selection; otherwise the selection's ends, ordered, mapped through the
      segments, with 0 for a start past every word and the audio duration
      for an end past every word. */
  function SelectionToTime(tr: Option<TranscriptionResult>, a: int, b: int, sessionDur: Option<real>): (r: Option<Span>)
    ensures r.None? <==> tr.None? || a == b
    ensures r.Some? ==>
      var segs := tr.value.segments;
      var s := MinInt(a, b);
      var e := MaxInt(a, b);
      && (forall k :: FirstPast(segs, s, k) ==> r.value.start == segs[k].startSec)
      && ((forall k :: 0 <= k < |segs| ==> segs[k].CharEnd() <= s) ==> r.value.start == 0.0)
      && (forall k :: FirstReaching(segs, e, k) ==> r.value.end == Some(segs[k].EndSec()))
      && ((forall k :: 0 <= k < |segs| ==> segs[k].CharEnd() < e) ==> r.value.end == sessionDur)
  {
    if tr.None? then None
    else
      var s := MinInt(a, b);
      var e := MaxInt(a, b);
      if s == e then None
      else
        var sc := ScanSegments(tr.value.segments, s, e, None);
        ScanSegmentsSpec(tr.value.segments, s, e, None);
        Some(Span(sc.startT.GetOr(0.0), if sc.endT.Some? then sc.endT else sessionDur))
  }

  /** Whenever session audio exists, a resolved span has an end. */
  lemma SelectionHasEndWithSession(tr: Option<TranscriptionResult>, a: int, b: int, dur: real)
    requires SelectionToTime(tr, a, b, Some(dur)).Some?
    ensures SelectionToTime(tr, a, b, Some(dur)).value.end.Some?
  {
    var segs := tr.value.segments;
    ScanSegmentsSpec(segs, MinInt(a, b), MaxInt(a, b), None);
  }

  /** "hello world" with its two words: selecting all eleven characters
      gives 0.0 s to 1.1 s. */
  lemma HelloWorldScenario()
    ensures SelectionToTime(
      Some(TranscriptionResult("hello world", [
        WordSegment("hello", 0.0, 0.5, 0, 5),
        WordSegment("world", 0.6, 0.5, 6, 5)])),
      0, 11, Some(1.2)) == Some(Span(0.0, Some(1.1)))
  {
  }

  /** Segments whose character ends strictly increase. */
  predicate CharOrdered(segs: seq<WordSegment>) {
    forall i :: 0 <= i < |segs| - 1 ==> segs[i].CharEnd() < segs[i + 1].CharEnd()
  }

  /** Selecting the whole text of ordered segments spans from the first
      word's start to the last word's end. */
  lemma WholeTextSelection(tr: TranscriptionResult, textLen: int, dur: Option<real>)
    requires |tr.segments| > 0 && CharOrdered(tr.segments)
    requires tr.segments[0].CharEnd() > 0 && tr.segments[|tr.segments| - 1].CharEnd() == textLen
    ensures SelectionToTime(Some(tr), 0, textLen, dur)
      == Some(Span(tr.segments[0].startSec, Some(tr.segments[|tr.segments| - 1].EndSec())))
  {
    var segs := tr.segments;
    var n := |segs|;
    assert FirstPast(segs, 0, 0);
    OrderedEndsBelowLast(segs);
    assert FirstReaching(segs, textLen, n - 1);
  }

  lemma {:induction false} OrderedEndsBelowLast(segs: seq<WordSegment>)
    requires |segs| > 0 && CharOrdered(segs)
    ensures forall j :: 0 <= j < |segs| - 1 ==> segs[j].CharEnd() < segs[|segs| - 1].CharEnd()
    decreases |segs|
  {
    if |segs| > 1 {
      var init := segs[..|segs| - 1];
      assert CharOrdered(init);
      OrderedEndsBelowLast(init);
    }
  }

  /** `on_waveform_selection`: a zero-width drag clears the selection,
      any other is stored with its ends in order. */
  function WaveformSelection(start: real, end: real): (r: Option<Span>)
    ensures r.None? <==> start == end
    ensures r.Some? ==> r.value.end.Some? && r.value.start < r.value.end.value
    ensures r.Some? ==> (r.value.start == start && r.value.end == Some(end)) || (r.value.start == end && r.value.end == Some(start))
  {
    if start == end then None else Some(Span(Min(start, end), Some(Max(start, end))))
  }
}

=== FILE: session.dfy ===
/** The editing session as a state machine over the main window's state:
    the session audio, the transcript, the selection, the re-record arming,
    the recorder, the waveform widget and playback. Each handler is a pure
    function from the state before to the state after. The speech recognizer
    is a parameter `recognize` from the 16-bit codes and the sample rate of
    the file handed to it to a result, or `None` when it fails; audio devices are flags and recorded chunks
    arrive as arguments. */
module Session {
  import opened Common
  import opened Transcript
  import Pcm
  import opened AudioEditor
  import Recorder
  import opened Waveform
  import opened Selection

  /** The audio being edited: mono samples, their rate and channel count. */
  datatype SessionAudio = SessionAudio(audio: seq<real>, sampleRate: int, channels: int)

  datatype App = App(
    session: Option<SessionAudio>,
    transcription: Option<TranscriptionResult>,
    selectionTime: Option<Span>,
    rerecordActive: bool,
    rerecordRange: Option<Span>,
    recorder: Recorder.Recorder<real>,
    view: View,
    playing: bool,
    playFrame: int,
    /** Deferred `_final_transcribe_if_ready` calls not yet fired. */
    pendingFinal: nat,
    speechAvailable: bool,
    deviceAvailable: bool)

  /** The window as constructed: a 44.1 kHz mono recorder and nothing loaded. */
  function InitialApp(speechAvailable: bool, deviceAvailable: bool): App {
    App(None, None, None, false, None, Recorder.Init(44100, 1), InitialView(), false, 0, 0,
        speechAvailable, deviceAvailable)
  }

  /** The sample rates the handlers divide by are positive. */
  predicate Valid(app: App) {
    (app.session.Some? ==> app.session.value.sampleRate > 0) && app.recorder.sampleRate > 0
  }

  /** What holds in every state the handlers can reach (`AllStepsKeepInv`). */
  predicate Inv(app: App) {
    && Valid(app)
    && (app.session.Some? ==>
         app.view.audio == Some(app.session.value.audio) && app.view.sampleRate == app.session.value.sampleRate)
    && (app.transcription.Some? ==> app.session.Some?)
    && (app.selectionTime.Some? ==> app.selectionTime.value.end.Some?)
    && (app.rerecordRange.Some? ==> app.rerecordRange.value.end.Some?)
    && app.view.cursor >= 0.0
  }

  /** `len(audio) / sample_rate`, when there is a session. */
  function SessionDur(s: Option<SessionAudio>): (d: Option<real>)
    requires s.Some? ==> s.value.sampleRate > 0
    ensures d.Some? <==> s.Some?
    ensures d.Some? ==> d.value >= 0.0 && d.value * s.value.sampleRate as real == |s.value.audio| as real
  {
    if s.None? then None else Some(|s.value.audio| as real / s.value.sampleRate as real)
  }

  // ---------------------------------------------------------------------------
  // on_transcribe

  /** `str.isspace` for the characters Latin-1 calls whitespace. */
  predicate IsSpace(c: char) {
    c == ' ' || c == '\t' || c == '\n' || c == '\r' || c == '\U{000B}' || c == '\U{000C}'
    || ('\U{001C}' <= c <= '\U{001F}') || c == '\U{0085}' || c == '\U{00A0}'
  }

  /** `text.strip()` is empty. */
  predicate IsBlank(s: string) {
    forall i :: 0 <= i < |s| ==> IsSpace(s[i])
  }

  const PlaceholderResult: TranscriptionResult := TranscriptionResult(NoSpeechPlaceholder, [])

  /** What the transcript becomes after one recognizer run: the result,
      unless the recognizer failed or heard only whitespace. */
  function Recognized(out: Option<TranscriptionResult>): (tr: TranscriptionResult)
    ensures out.None? || IsBlank(out.value.text) ==> tr == PlaceholderResult
    ensures out.Some? && !IsBlank(out.value.text) ==> tr == out.value
    ensures !IsBlank(tr.text)
  {
    if out.None? || IsBlank(out.value.text) then
      assert !IsSpace(NoSpeechPlaceholder[0]);
      PlaceholderResult
    else out.value
  }

  /** The word overlay items `(start, start + duration, text)`. */
  function WordItems(segs: seq<WordSegment>): (items: seq<WordItem>)
    ensures |items| == |segs|
    ensures forall i :: 0 <= i < |segs| ==>
      items[i].startSec == segs[i].startSec && items[i].endSec == segs[i].EndSec() && items[i].text == segs[i].text
  {
    seq(|segs|, i requires 0 <= i < |segs| => WordItem(segs[i].startSec, segs[i].EndSec(), segs[i].text))
  }

  /** `on_transcribe`: nothing without a recognizer or a session; otherwise
      the session's samples go to the recognizer as 16-bit codes at the
      session's rate, a failure
      or a blank answer leaves the placeholder, and a real answer becomes the
      transcript, its words going to the overlay only when there are some. */
  function OnTranscribe(app: App, recognize: (seq<int>, int) -> Option<TranscriptionResult>): (app': App)
    ensures !app.speechAvailable || app.session.None? ==> app' == app
    ensures app.speechAvailable && app.session.Some? ==>
      var out := recognize(Pcm.EncodeAll(app.session.value.audio), app.session.value.sampleRate);
      && app'.transcription == Some(Recognized(out))
      && (out.Some? && !IsBlank(out.value.text) && |out.value.segments| > 0 ==>
            app'.view.words == Some(WordItems(out.value.segments)))
      && (out.None? || IsBlank(out.value.text) || |out.value.segments| == 0 ==> app'.view == app.view)
    ensures app' == app.(transcription := app'.transcription, view := app.view.(words := app'.view.words))
  {
    if !app.speechAvailable || app.session.None? then app
    else
      var out := recognize(Pcm.EncodeAll(app.session.value.audio), app.session.value.sampleRate);
      var tr := Recognized(out);
      if tr.segments != [] then app.(transcription := Some(tr), view := SetTranscript(app.view, WordItems(tr.segments)))
      else app.(transcription := Some(tr))
  }

  /** After a transcription run the editor never shows blank text. */
  lemma TranscriptNeverBlank(app: App, recognize: (seq<int>, int) -> Option<TranscriptionResult>)
    requires app.speechAvailable && app.session.Some?
    ensures var app' := OnTranscribe(app, recognize);
      app'.transcription.Some? && !IsBlank(app'.transcription.value.text)
  {
  }

  /** `_final_transcribe_if_ready`: transcribe only with a recognizer and a
      non-empty session. */
  function FinalTranscribeIfReady(app: App, recognize: (seq<int>, int) -> Option<TranscriptionResult>): (app': App)
    ensures app.session.None? || |app.session.value.audio| == 0 ==> app' == app
    ensures app.session.Some? && |app.session.value.audio| > 0 ==> app' == OnTranscribe(app, recognize)
  {
    if app.speechAvailable && app.session.Some? && |app.session.value.audio| > 0 then OnTranscribe(app, recognize)
    else app
  }

  /** The 150 ms timer `on_stop` armed fires: every shot runs the deferred
      transcription, which leaves a non-blank transcript for a non-empty
      session and does nothing else. */
  function OnFinalTimer(app: App, recognize: (seq<int>, int) -> Option<TranscriptionResult>): (app': App)
    ensures app.pendingFinal == 0 ==> app' == app
    ensures app.pendingFinal > 0 ==> app'.pendingFinal == app.pendingFinal - 1
    ensures app.pendingFinal > 0 && app.speechAvailable && app.session.Some? && |app.session.value.audio| > 0 ==>
      app'.transcription.Some? && !IsBlank(app'.transcription.value.text)
    ensures app.pendingFinal > 0 && (!app.speechAvailable || app.session.None? || |app.session.value.audio| == 0) ==>
      app' == app.(pendingFinal := app.pendingFinal - 1)
  {
    if app.pendingFinal == 0 then app
    else FinalTranscribeIfReady(app.(pendingFinal := app.pendingFinal - 1), recognize)
  }

  // ---------------------------------------------------------------------------
  // Selection handlers

  /** `on_selection_changed`: the transcript selection `[a, b]` is resolved
      to a time span, which the waveform shows when there is a session. */
  function OnSelectionChanged(app: App, a: int, b: int): (app': App)
    requires Valid(app)
    ensures app'.selectionTime == SelectionToTime(app.transcription, a, b, SessionDur(app.session))
    ensures app'.selectionTime.Some? && app.session.Some? ==>
      app'.view.selStart == Some(app'.selectionTime.value.start) && app'.view.selEnd == app'.selectionTime.value.end
    ensures app'.selectionTime.None? || app.session.None? ==> app'.view.selStart.None? && app'.view.selEnd.None?
    ensures app' == app.(selectionTime := app'.selectionTime, view := app.view.(selStart := app'.view.selStart, selEnd := app'.view.selEnd))
  {
    var sel := SelectionToTime(app.transcription, a, b, SessionDur(app.session));
    if sel.Some? && app.session.Some? then
      app.(selectionTime := sel, view := SetSelection(app.view, Some(sel.value.start), sel.value.end))
    else
      app.(selectionTime := sel, view := SetSelection(app.view, None, None))
  }

  /** `on_waveform_selection`: only the stored span changes. */
  function OnWaveformSelection(app: App, start: real, end: real): (app': App)
    ensures start == end ==> app'.selectionTime.None?
    ensures start != end ==> app'.selectionTime == Some(Span(Min(start, end), Some(Max(start, end))))
    ensures app' == app.(selectionTime := app'.selectionTime)
  {
    app.(selectionTime := WaveformSelection(start, end))
  }

  /** `on_rerecord`: arms re-record on the stored span, given a session. */
  function OnRerecord(app: App): (app': App)
    ensures app.session.None? || app.selectionTime.None? ==> app' == app
    ensures app.session.Some? && app.selectionTime.Some? ==>
      app' == app.(rerecordActive := true, rerecordRange := app.selectionTime)
  {
    if app.session.None? || app.selectionTime.None? then app
    else app.(rerecordActive := true, rerecordRange := app.selectionTime)
  }

  // ---------------------------------------------------------------------------
  // _delete_selection

  /** The span a delete acts on: the stored one, else the transcript selection's. */
  function DeleteRange(app: App, a: int, b: int): (sel: Option<Span>)
    requires Valid(app)
    ensures app.selectionTime.Some? ==> sel == app.selectionTime
    ensures app.selectionTime.None? ==> sel == SelectionToTime(app.transcription, a, b, SessionDur(app.session))
  {
    if app.selectionTime.Some? then app.selectionTime
    else SelectionToTime(app.transcription, a, b, SessionDur(app.session))
  }

  /** The guards of `_delete_selection`. */
  predicate CanDelete(app: App, a: int, b: int)
    requires Valid(app)
  {
    var sel := DeleteRange(app, a, b);
    app.session.Some? && sel.Some? && sel.value.end.Some? && sel.value.start < sel.value.end.value
  }

  /** `_delete_selection`: without a session, a resolvable span, or with
      `end <= start`, nothing happens; otherwise the span's frames are cut
      out, the selection is dropped, the waveform shows the shorter buffer
      with the playhead at the cut, and the session is transcribed again. */
  function DeleteSelection(app: App, a: int, b: int, recognize: (seq<int>, int) -> Option<TranscriptionResult>): (app': App)
    requires Valid(app)
    ensures !CanDelete(app, a, b) ==> app' == app
    ensures CanDelete(app, a, b) ==>
      var s := app.session.value;
      var sel := DeleteRange(app, a, b).value;
      var bd := SpliceBounds(|s.audio|, s.sampleRate, sel.start, sel.end.value);
      && app'.session == Some(s.(audio := s.audio[..bd.s] + s.audio[bd.e..]))
      && |app'.session.value.audio| == |s.audio| - (bd.e - bd.s)
      && app'.selectionTime.None?
      && app'.view.audio == Some(app'.session.value.audio)
      && app'.view.selStart.None? && app'.view.port == FullView
      && app'.view.cursor == Max(0.0, sel.start)
      && app'.view.selEnd.None? && app'.view.sampleRate == s.sampleRate
      && app'.transcription == (if app.speechAvailable then
           Some(Recognized(recognize(Pcm.EncodeAll(app'.session.value.audio), s.sampleRate)))
         else app.transcription)
      && app' == app.(session := app'.session, selectionTime := None, transcription := app'.transcription, view := app'.view)
  {
    if !CanDelete(app, a, b) then app
    else
      var s := app.session.value;
      var sel := DeleteRange(app, a, b).value;
      var audio' := Splice(s.audio, s.sampleRate, sel.start, sel.end.value, []);
      SpliceEmptyDeletes(s.audio, s.sampleRate, sel.start, sel.end.value);
      var view' := SetCursorTime(SetSelection(SetAudio(app.view, audio', s.sampleRate), None, None), sel.start);
      OnTranscribe(app.(session := Some(s.(audio := audio')), view := view', selectionTime := None), recognize)
  }

  /** A stored span wins over the transcript selection: with one present the
      transcript selection does not matter. */
  lemma DeletePrefersStoredSpan(app: App, a: int, b: int, c: int, d: int,
                                recognize: (seq<int>, int) -> Option<TranscriptionResult>)
    requires Valid(app) && app.selectionTime.Some?
    ensures DeleteSelection(app, a, b, recognize) == DeleteSelection(app, c, d, recognize)
  {
  }

  /** Deleting a span that lands on frames `[s, e)` removes exactly those frames. */
  lemma DeleteFrameRange(app: App, s: nat, e: nat, recognize: (seq<int>, int) -> Option<TranscriptionResult>)
    requires Valid(app) && app.session.Some?
    requires var sa := app.session.value; s < e <= |sa.audio|
    requires app.selectionTime == Some(Span(s as real / app.session.value.sampleRate as real,
                                            Some(e as real / app.session.value.sampleRate as real)))
    ensures var sa := app.session.value;
      DeleteSelection(app, 0, 0, recognize).session == Some(sa.(audio := sa.audio[..s] + sa.audio[e..]))
  {
    var sa := app.session.value;
    var sr := sa.sampleRate;
    SpliceBoundsExact(|sa.audio|, sr, s, e);
    DivLeMono(s as real, e as real, sr as real);
    assert s as real / sr as real != e as real / sr as real by {
      assert (s as real / sr as real) * sr as real == s as real;
      assert (e as real / sr as real) * sr as real == e as real;
    }
    assert CanDelete(app, 0, 0);
  }

  // ---------------------------------------------------------------------------
  // on_record / on_stop

  /** `on_stop`'s re-record branch. Without a capture in progress only a
      prompt appears; with no session or no armed span the clip is dropped
      and re-record disarmed; otherwise the clip replaces the armed span and
      the playhead goes to the span's start. A span without an end makes the
      splice raise: the capture has ended but re-record stays armed. */
  function StopRerecord(app: App, pending: seq<seq<real>>, recognize: (seq<int>, int) -> Option<TranscriptionResult>): (app': App)
    requires Valid(app) && app.rerecordActive
    ensures !app.recorder.IsRecording() ==> app' == app
    ensures app.recorder.IsRecording() ==> !app'.recorder.IsRecording()
    ensures app.recorder.IsRecording() && (app.session.None? || app.rerecordRange.None?) ==>
      app' == app.(recorder := app'.recorder, rerecordActive := false, rerecordRange := None)
    ensures app.recorder.IsRecording() && app.session.Some? && app.rerecordRange.Some?
            && app.rerecordRange.value.end.Some? ==>
      var s := app.session.value;
      var sp := app.rerecordRange.value;
      var clip := app.recorder.buffer.GetOr([]) + Flatten(pending);
      && app'.session == Some(s.(audio := Splice(s.audio, s.sampleRate, sp.start, sp.end.value, clip)))
      && !app'.rerecordActive && app'.rerecordRange.None?
      && app'.view.audio == Some(app'.session.value.audio) && app'.view.cursor == Max(0.0, sp.start)
      && app'.view.port == FullView && app'.view.selStart.None? && app'.view.selEnd.None?
      && app'.view.sampleRate == s.sampleRate
      && app'.transcription == (if app.speechAvailable then
           Some(Recognized(recognize(Pcm.EncodeAll(app'.session.value.audio), s.sampleRate)))
         else app.transcription)
      && app' == app.(recorder := app'.recorder, session := app'.session, transcription := app'.transcription,
                      view := app'.view, rerecordActive := false, rerecordRange := None)
    ensures app.recorder.IsRecording() && app.session.Some? && app.rerecordRange.Some?
            && app.rerecordRange.value.end.None? ==>
      app' == app.(recorder := app'.recorder)
  {
    if !app.recorder.IsRecording() then app
    else
      var cap := Recorder.Stop(app.recorder, pending).value;
      var a1 := app.(recorder := cap.recorder);
      if a1.session.None? || a1.rerecordRange.None? then a1.(rerecordActive := false, rerecordRange := None)
      else
        var sp := a1.rerecordRange.value;
        if sp.end.None? then a1
        else
          var s := a1.session.value;
          var audio' := Splice(s.audio, s.sampleRate, sp.start, sp.end.value, cap.audio);
          var view' := SetCursorTime(SetAudio(a1.view, audio', s.sampleRate), sp.start);
          OnTranscribe(a1.(session := Some(s.(audio := audio')), view := view',
                           rerecordActive := false, rerecordRange := None), recognize)
  }

  /** Where `on_stop` puts a fresh capture: it becomes the session when there
      is none or it is empty, goes after the session when the playhead is
      within 50 ms of the end, and otherwise replaces the session. The flag
      says whether it was appended. */
  function Place(session: Option<SessionAudio>, cursor: real, clip: seq<real>, sampleRate: int): (r: (SessionAudio, bool))
    requires session.Some? ==> session.value.sampleRate > 0
    ensures session.None? || |session.value.audio| == 0 ==> r == (SessionAudio(clip, sampleRate, 1), false)
    ensures session.Some? && |session.value.audio| > 0 ==>
      var dur := SessionDur(session).value;
      && (cursor >= dur - 0.05 ==> r == (session.value.(audio := session.value.audio + clip), true))
      && (cursor < dur - 0.05 ==> r == (SessionAudio(clip, sampleRate, 1), false))
  {
    if session.None? || |session.value.audio| == 0 then (SessionAudio(clip, sampleRate, 1), false)
    else
      var s := session.value;
      var dur := |s.audio| as real / s.sampleRate as real;
      if cursor >= dur - 0.05 then (s.(audio := s.audio + clip), true)
      else (SessionAudio(clip, sampleRate, 1), false)
  }

  /** The append `on_stop` performs is the splice at the buffer's end. */
  lemma AppendIsSpliceAtEnd(s: SessionAudio, clip: seq<real>)
    requires s.sampleRate > 0
    ensures var dur := |s.audio| as real / s.sampleRate as real;
      Splice(s.audio, s.sampleRate, dur, dur, clip) == s.audio + clip
  {
    SpliceAtEndAppends(s.audio, s.sampleRate, |s.audio| as real / s.sampleRate as real, clip);
  }

  /** `on_stop` without re-record: a running capture is ended and placed;
      then, whenever there is a session, the waveform shows it with the
      playhead at its end and a transcription follows, at once after an
      append and otherwise from the 150 ms timer. */
  function StopPrimary(app: App, pending: seq<seq<real>>, recognize: (seq<int>, int) -> Option<TranscriptionResult>): (app': App)
    requires Valid(app)
    ensures !app'.recorder.IsRecording()
    ensures app.recorder.IsRecording() ==>
      var clip := app.recorder.buffer.GetOr([]) + Flatten(pending);
      app'.session == Some(Place(app.session, app.view.cursor, clip, app.recorder.sampleRate).0)
    ensures !app.recorder.IsRecording() ==> app'.session == app.session && app'.transcription == app.transcription
    ensures app'.session.Some? ==>
      && app'.view.audio == Some(app'.session.value.audio)
      && app'.view.cursor == SessionDur(app'.session).value
      && app'.view.port == FullView
    ensures var clip := app.recorder.buffer.GetOr([]) + Flatten(pending);
      var appended := app.recorder.IsRecording() && Place(app.session, app.view.cursor, clip, app.recorder.sampleRate).1;
      && (appended ==>
            && app'.pendingFinal == app.pendingFinal
            && app'.transcription == (if app.speechAvailable then
                 Some(Recognized(recognize(Pcm.EncodeAll(app'.session.value.audio), app'.session.value.sampleRate)))
               else app.transcription))
      && (!appended && app'.session.Some? ==>
            app'.pendingFinal == app.pendingFinal + 1 && app'.transcription == app.transcription)
      && (app'.session.None? ==> app' == app)
    ensures app' == app.(recorder := app'.recorder, session := app'.session, view := app'.view,
                         transcription := app'.transcription, pendingFinal := app'.pendingFinal)
  {
    var placed :=
      if app.recorder.IsRecording() then
        var cap := Recorder.Stop(app.recorder, pending).value;
        var p := Place(app.session, app.view.cursor, cap.audio, cap.sampleRate);
        (app.(recorder := cap.recorder, session := Some(p.0)), p.1)
      else (app, false);
    var a1 := placed.0;
    if a1.session.None? then a1
    else
      var s := a1.session.value;
      var view' := SetCursorTime(SetAudio(a1.view, s.audio, s.sampleRate), |s.audio| as real / s.sampleRate as real);
      var a2 := a1.(view := view');
      if placed.1 then OnTranscribe(a2, recognize) else a2.(pendingFinal := a2.pendingFinal + 1)
  }

  /** `on_stop`: playback stops, then the re-record or the primary branch. */
  function OnStop(app: App, pending: seq<seq<real>>, recognize: (seq<int>, int) -> Option<TranscriptionResult>): (app': App)
    requires Valid(app)
    ensures !app'.playing
    ensures app.rerecordActive ==> app' == StopRerecord(app.(playing := false), pending, recognize)
    ensures !app.rerecordActive ==> app' == StopPrimary(app.(playing := false), pending, recognize)
  {
    var a0 := app.(playing := false);
    if a0.rerecordActive then StopRerecord(a0, pending, recognize) else StopPrimary(a0, pending, recognize)
  }

  /** `on_record`: while recording it is Stop; otherwise a transcript
      selection arms re-record on its span, playback stops and the recorder
      starts, which fails without an input device. */
  function OnRecord(app: App, a: int, b: int, pending: seq<seq<real>>,
                    recognize: (seq<int>, int) -> Option<TranscriptionResult>): (app': App)
    requires Valid(app)
    ensures app.recorder.IsRecording() ==> app' == OnStop(app, pending, recognize)
    ensures !app.recorder.IsRecording() ==>
      var auto := SelectionToTime(app.transcription, a, b, SessionDur(app.session));
      && !app'.playing
      && (auto.Some? ==> app'.rerecordActive && app'.rerecordRange == auto)
      && (auto.None? ==> app'.rerecordActive == app.rerecordActive && app'.rerecordRange == app.rerecordRange)
      && (app'.recorder.IsRecording() <==> app.deviceAvailable)
      && (app.deviceAvailable ==> app'.recorder.buffer.None?)
      && app'.session == app.session && app'.view == app.view && app'.transcription == app.transcription
  {
    if app.recorder.IsRecording() then OnStop(app, pending, recognize)
    else
      var auto := SelectionToTime(app.transcription, a, b, SessionDur(app.session));
      var a1 := if auto.Some? then app.(rerecordActive := true, rerecordRange := auto) else app;
      var a2 := a1.(playing := false);
      match Recorder.Start(a2.recorder, a2.deviceAvailable)
      case Err(_) => a2
      case Ok(r) => a2.(recorder := r)
  }

  /** The collector flushes chunks into the recorder while it records. */
  function OnFlush(app: App, chunks: seq<seq<real>>): (app': App)
    ensures app.recorder.IsRecording() && |chunks| > 0 ==>
      app'.recorder.buffer == Some(app.recorder.buffer.GetOr([]) + Flatten(chunks))
    ensures app' == app.(recorder := app'.recorder)
    ensures app'.recorder.IsRecording() == app.recorder.IsRecording()
  {
    if app.recorder.IsRecording() && |chunks| > 0 then app.(recorder := Recorder.AppendToBuffer(app.recorder, chunks))
    else app
  }

  /** Record with a transcript selection, speak, Stop: the words spoken
      replace the selected span, and re-record is disarmed. */
  lemma RecordFlushStopReplacesSelection(app: App, a: int, b: int, chunks: seq<seq<real>>, pending: seq<seq<real>>,
                                         recognize: (seq<int>, int) -> Option<TranscriptionResult>)
    requires Inv(app) && !app.recorder.IsRecording() && app.deviceAvailable
    requires app.transcription.Some? && a != b
    ensures var sp := SelectionToTime(app.transcription, a, b, SessionDur(app.session)).value;
      var a1 := OnRecord(app, a, b, [], recognize);
      var a2 := OnFlush(a1, chunks);
      var a3 := OnStop(a2, pending, recognize);
      var s := app.session.value;
      && app.session.Some? && sp.end.Some?
      && a3.session == Some(s.(audio := Splice(s.audio, s.sampleRate, sp.start, sp.end.value, Flatten(chunks) + Flatten(pending))))
      && !a3.rerecordActive && a3.rerecordRange.None? && !a3.recorder.IsRecording()
  {
    var dur := SessionDur(app.session);
    var sp := SelectionToTime(app.transcription, a, b, dur).value;
    assert app.session.Some?;
    SelectionHasEndWithSession(app.transcription, a, b, dur.value);
    var a1 := OnRecord(app, a, b, [], recognize);
    var a2 := OnFlush(a1, chunks);
    assert a2.recorder.IsRecording();
    if |chunks| > 0 {
      assert a2.recorder.buffer.GetOr([]) == Flatten(chunks);
    } else {
      assert a2.recorder.buffer.GetOr([]) + Flatten(pending) == Flatten(chunks) + Flatten(pending);
    }
  }

  // ---------------------------------------------------------------------------
  // on_play

  /** `on_play`: playback starts at the playhead, or from 0 when the
      playhead is within 10 ms of the end; `playFrame` is that time's frame. */
  function OnPlay(app: App): (app': App)
    ensures app.session.None? ==> app' == app
    ensures app.session.Some? ==> app'.playing && app'.playFrame >= 0
    ensures app.session.Some? ==>
      var s := app.session.value;
      var dur := if s.sampleRate > 0 then |s.audio| as real / s.sampleRate as real else 0.0;
      && (dur > 0.0 && app.view.cursor >= dur - 0.01 ==> app'.playFrame == 0 && app'.view.cursor == 0.0)
      && (!(dur > 0.0 && app.view.cursor >= dur - 0.01) ==> app'.view.cursor == Max(0.0, app.view.cursor))
    ensures app' == app.(playing := app'.playing, playFrame := app'.playFrame, view := app.view.(cursor := app'.view.cursor))
  {
    if app.session.None? then app
    else
      var s := app.session.value;
      var dur := if s.sampleRate > 0 then |s.audio| as real / s.sampleRate as real else 0.0;
      var start := if dur > 0.0 && app.view.cursor >= dur - 0.01 then 0.0 else app.view.cursor;
      app.(playing := true, playFrame := MaxInt(0, TruncToZero(start * s.sampleRate as real)),
           view := SetCursorTime(app.view, start))
  }

  /** Playback of a non-empty buffer begins inside it, at the frame holding
      the playhead. */
  lemma PlayStartsAtPlayheadFrame(app: App)
    requires Inv(app) && app.session.Some? && |app.session.value.audio| > 0
    ensures var s := app.session.value;
      var f := OnPlay(app).playFrame;
      var t := OnPlay(app).view.cursor;
      && 0 <= f < |s.audio|
      && f as real <= t * s.sampleRate as real < f as real + 1.0
  {
    var s := app.session.value;
    var sr := s.sampleRate as real;
    var dur := |s.audio| as real / sr;
    assert dur * sr == |s.audio| as real;
    var start := if dur > 0.0 && app.view.cursor >= dur - 0.01 then 0.0 else app.view.cursor;
    var a' := OnPlay(app);
    assert a'.view.cursor == start;
    var x := start * sr;
    MulLeMono(0.0, start, sr);
    if start == 0.0 {
      assert x == 0.0;
    } else {
      assert 0.0 <= start < dur;
      MulLeMono(start, dur, sr);
      assert (dur - start) * sr > 0.0;
      assert x < |s.audio| as real;
    }
    assert a'.playFrame == TruncToZero(x);
  }

  // ---------------------------------------------------------------------------
  // Import and clear

  /** The samples a WAV file holds, as 16-bit codes, and its rate. */
  datatype WavFile = WavFile(codes: seq<int>, sampleRate: int)

  /** `_load_audio_file` on a mono file; `None` is a file that could not be
      read, which leaves everything as it was. */
  function OnImport(app: App, file: Option<WavFile>, recognize: (seq<int>, int) -> Option<TranscriptionResult>): (app': App)
    requires file.Some? ==> file.value.sampleRate > 0
    ensures file.None? ==> app' == app
    ensures file.Some? ==>
      && app'.session == Some(SessionAudio(Pcm.DecodeAll(file.value.codes), file.value.sampleRate, 1))
      && app'.view.audio == Some(Pcm.DecodeAll(file.value.codes)) && app'.view.cursor == 0.0
      && app'.view.port == FullView
      && (app.speechAvailable ==> app'.transcription.Some?)
    ensures file.Some? && app.speechAvailable ==>
      app'.transcription == Some(Recognized(recognize(Pcm.EncodeAll(Pcm.DecodeAll(file.value.codes)), file.value.sampleRate)))
    ensures !app.speechAvailable ==> app'.transcription == app.transcription
    ensures app'.selectionTime == app.selectionTime && app'.rerecordActive == app.rerecordActive
      && app'.rerecordRange == app.rerecordRange && app'.recorder == app.recorder
      && app'.playing == app.playing && app'.pendingFinal == app.pendingFinal
  {
    if file.None? then app
    else
      var audio := Pcm.DecodeAll(file.value.codes);
      var view' := SetCursorTime(SetAudio(app.view, audio, file.value.sampleRate), 0.0);
      OnTranscribe(app.(session := Some(SessionAudio(audio, file.value.sampleRate, 1)), view := view'), recognize)
  }

  /** A file whose codes the encoder can produce (no -32768) reaches the
      recognizer unchanged: the import's decode and the transcription's
      encode cancel. */
  lemma ImportRecognizesFileCodes(app: App, file: WavFile, recognize: (seq<int>, int) -> Option<TranscriptionResult>)
    requires file.sampleRate > 0 && app.speechAvailable
    requires forall i :: 0 <= i < |file.codes| ==> Pcm.IsCode(file.codes[i])
    ensures OnImport(app, Some(file), recognize).transcription == Some(Recognized(recognize(file.codes, file.sampleRate)))
  {
    Pcm.DecodeEncodeAllIdentity(file.codes);
  }

  /** `on_clear`: with audio or text present and the user confirming,
      playback and capture stop and the session, transcript and selection
      go; the re-record arming is left as it was. */
  function OnClear(app: App, editorText: string, confirmed: bool): (app': App)
    ensures var hasAudio := app.session.Some? && |app.session.value.audio| > 0;
      !(hasAudio || !IsBlank(editorText)) || !confirmed ==> app' == app
    ensures var hasAudio := app.session.Some? && |app.session.value.audio| > 0;
      (hasAudio || !IsBlank(editorText)) && confirmed ==>
      && app'.session.None? && app'.transcription.None? && app'.selectionTime.None?
      && !app'.playing && !app'.recorder.IsRecording()
      && app'.view.audio == Some([]) && app'.view.words == Some([]) && app'.view.cursor == 0.0
      && app'.view.selStart.None? && app'.view.port == FullView
      && app'.rerecordActive == app.rerecordActive && app'.rerecordRange == app.rerecordRange
  {
    var hasAudio := app.session.Some? && |app.session.value.audio| > 0;
    if !(hasAudio || !IsBlank(editorText)) || !confirmed then app
    else
      var rec := if app.recorder.IsRecording() then Recorder.Stop(app.recorder, []).value.recorder else app.recorder;
      var view' := SetCursorTime(SetAudio(SetTranscript(SetSelection(app.view, None, None), []), [], 44100), 0.0);
      app.(playing := false, recorder := rec, session := None, transcription := None, selectionTime := None,
           view := view')
  }

  // ---------------------------------------------------------------------------
  // The whole machine

  datatype Command =
    | Transcribe
    | SelectText(a: int, b: int)
    | DragSelect(startSec: real, endSec: real)
    /** `on_rerecord`, which no signal is connected to: kept so the
        invariant covers the handler as written. */
    | Rerecord
    | Delete(a: int, b: int)
    | Record(a: int, b: int, pending: seq<seq<real>>)
    | Flush(chunks: seq<seq<real>>)
    | Stop(pending: seq<seq<real>>)
    | FinalTimer
    | Play
    | Import(file: Option<WavFile>)
    | Clear(editorText: string, confirmed: bool)

  /** A file a WAV reader hands back has a positive rate. */
  predicate Admissible(c: Command) {
    c.Import? && c.file.Some? ==> c.file.value.sampleRate > 0
  }

  function Step(app: App, c: Command, recognize: (seq<int>, int) -> Option<TranscriptionResult>): App
    requires Valid(app) && Admissible(c)
  {
    match c
    case Transcribe => OnTranscribe(app, recognize)
    case SelectText(a, b) => OnSelectionChanged(app, a, b)
    case DragSelect(s, e) => OnWaveformSelection(app, s, e)
    case Rerecord => OnRerecord(app)
    case Delete(a, b) => DeleteSelection(app, a, b, recognize)
    case Record(a, b, pending) => OnRecord(app, a, b, pending, recognize)
    case Flush(chunks) => OnFlush(app, chunks)
    case Stop(pending) => OnStop(app, pending, recognize)
    case FinalTimer => OnFinalTimer(app, recognize)
    case Play => OnPlay(app)
    case Import(file) => OnImport(app, file, recognize)
    case Clear(text, confirmed) => OnClear(app, text, confirmed)
  }

  lemma TranscribeKeepsInv(app: App, recognize: (seq<int>, int) -> Option<TranscriptionResult>)
    requires Inv(app)
    ensures Inv(OnTranscribe(app, recognize))
  {
  }

  lemma StopRerecordKeepsInv(app: App, pending: seq<seq<real>>, recognize: (seq<int>, int) -> Option<TranscriptionResult>)
    requires Inv(app) && app.rerecordActive
    ensures Inv(StopRerecord(app, pending, recognize))
  {
    if app.recorder.IsRecording() && app.session.Some? && app.rerecordRange.Some? {
      var cap := Recorder.Stop(app.recorder, pending).value;
      var a1 := app.(recorder := cap.recorder);
      var sp := a1.rerecordRange.value;
      var s := a1.session.value;
      var audio' := Splice(s.audio, s.sampleRate, sp.start, sp.end.value, cap.audio);
      var view' := SetCursorTime(SetAudio(a1.view, audio', s.sampleRate), sp.start);
      var a2 := a1.(session := Some(s.(audio := audio')), view := view', rerecordActive := false, rerecordRange := None);
      assert Inv(a2);
      TranscribeKeepsInv(a2, recognize);
    }
  }

  lemma StopPrimaryKeepsInv(app: App, pending: seq<seq<real>>, recognize: (seq<int>, int) -> Option<TranscriptionResult>)
    requires Inv(app)
    ensures Inv(StopPrimary(app, pending, recognize))
  {
    var placed :=
      if app.recorder.IsRecording() then
        var cap := Recorder.Stop(app.recorder, pending).value;
        var p := Place(app.session, app.view.cursor, cap.audio, cap.sampleRate);
        (app.(recorder := cap.recorder, session := Some(p.0)), p.1)
      else (app, false);
    var a1 := placed.0;
    assert Valid(a1);
    if a1.session.Some? {
      var s := a1.session.value;
      var view' := SetCursorTime(SetAudio(a1.view, s.audio, s.sampleRate), |s.audio| as real / s.sampleRate as real);
      var a2 := a1.(view := view');
      assert Inv(a2);
      TranscribeKeepsInv(a2, recognize);
    }
  }

  lemma StopKeepsInv(app: App, pending: seq<seq<real>>, recognize: (seq<int>, int) -> Option<TranscriptionResult>)
    requires Inv(app)
    ensures Inv(OnStop(app, pending, recognize))
  {
    var a0 := app.(playing := false);
    if app.rerecordActive {
      StopRerecordKeepsInv(a0, pending, recognize);
    } else {
      StopPrimaryKeepsInv(a0, pending, recognize);
    }
  }

  lemma SelectionKeepsInv(app: App, a: int, b: int)
    requires Inv(app)
    ensures Inv(OnSelectionChanged(app, a, b))
    ensures Inv(OnRecord(app, a, b, [], (t, r) => None)) || app.recorder.IsRecording()
  {
    var dur := SessionDur(app.session);
    var sel := SelectionToTime(app.transcription, a, b, dur);
    if sel.Some? {
      SelectionHasEndWithSession(app.transcription, a, b, dur.value);
    }
  }

  lemma ImportKeepsInv(app: App, file: Option<WavFile>, recognize: (seq<int>, int) -> Option<TranscriptionResult>)
    requires Inv(app) && (file.Some? ==> file.value.sampleRate > 0)
    ensures Inv(OnImport(app, file, recognize))
  {
    if file.Some? {
      var audio := Pcm.DecodeAll(file.value.codes);
      var view' := SetCursorTime(SetAudio(app.view, audio, file.value.sampleRate), 0.0);
      var a1 := app.(session := Some(SessionAudio(audio, file.value.sampleRate, 1)), view := view');
      assert Inv(a1);
      TranscribeKeepsInv(a1, recognize);
    }
  }

  lemma DeleteKeepsInv(app: App, a: int, b: int, recognize: (seq<int>, int) -> Option<TranscriptionResult>)
    requires Inv(app)
    ensures Inv(DeleteSelection(app, a, b, recognize))
  {
    if CanDelete(app, a, b) {
      var s := app.session.value;
      var sel := DeleteRange(app, a, b).value;
      var audio' := Splice(s.audio, s.sampleRate, sel.start, sel.end.value, []);
      var view' := SetCursorTime(SetSelection(SetAudio(app.view, audio', s.sampleRate), None, None), sel.start);
      var a1 := app.(session := Some(s.(audio := audio')), view := view', selectionTime := None);
      assert Inv(a1);
      TranscribeKeepsInv(a1, recognize);
    }
  }

  /** Every handler keeps `Inv`. */
  lemma StepKeepsInv(app: App, c: Command, recognize: (seq<int>, int) -> Option<TranscriptionResult>)
    requires Inv(app) && Admissible(c)
    ensures Inv(Step(app, c, recognize))
  {
    match c
    case Transcribe =>
    case SelectText(a, b) => SelectionKeepsInv(app, a, b);
    case DragSelect(s, e) =>
    case Rerecord =>
    case Delete(a, b) => DeleteKeepsInv(app, a, b, recognize);
    case Record(a, b, pending) =>
      if app.recorder.IsRecording() {
        StopKeepsInv(app, pending, recognize);
      } else {
        SelectionKeepsInv(app, a, b);
      }
    case Flush(chunks) =>
    case Stop(pending) => StopKeepsInv(app, pending, recognize);
    case FinalTimer =>
    case Play =>
    case Import(file) => ImportKeepsInv(app, file, recognize);
    case Clear(text, confirmed) =>
  }

  function Run(app: App, cs: seq<Command>, recognize: (seq<int>, int) -> Option<TranscriptionResult>): App
    requires Inv(app) && forall i :: 0 <= i < |cs| ==> Admissible(cs[i])
    decreases |cs|
  {
    if |cs| == 0 then app
    else
      StepKeepsInv(app, cs[0], recognize);
      Run(Step(app, cs[0], recognize), cs[1..], recognize)
  }

  /** From the window as constructed, any sequence of handlers reaches only
      states where the sample rates are positive, a transcript implies a
      session, the waveform shows the session, and stored spans have ends. */
  lemma {:induction false} AllStepsKeepInv(app: App, cs: seq<Command>, recognize: (seq<int>, int) -> Option<TranscriptionResult>)
    requires Inv(app) && forall i :: 0 <= i < |cs| ==> Admissible(cs[i])
    ensures Inv(Run(app, cs, recognize))
    decreases |cs|
  {
    if |cs| > 0 {
      StepKeepsInv(app, cs[0], recognize);
      AllStepsKeepInv(Step(app, cs[0], recognize), cs[1..], recognize);
    }
  }

  lemma InitialAppInv(speech: bool, device: bool)
    ensures Inv(InitialApp(speech, device))
  {
  }
}

=== FILE: transcript.dfy ===
/** The recognizer's output records: one word with its time span and its
    character span in the transcript text, and the full result. */
module Transcript {

  datatype WordSegment = WordSegment(
    text: string,
    startSec: real,
    durationSec: real,
    charStart: int,
    charLength: int)
  {
    /** One past the last transcript character the word covers. */
    function CharEnd(): int { charStart + charLength }

    /** The time at which the word ends. */
    function EndSec(): real { startSec + durationSec }
  }

  datatype TranscriptionResult = TranscriptionResult(text: string, segments: seq<WordSegment>)

  /** Shown in place of a transcript when nothing usable came back. */
  const NoSpeechPlaceholder: string := "[no speaking detected]"
}

=== FILE: waveform.dfy ===
/** The waveform viewport: a visible time window `(start, dur?)` over the
    buffer's total duration, where an absent `dur` means "fit everything";
    the clamp every gesture ends in; the pixel/time conversions; wheel and
    pinch zoom, wheel pan, and the widget's resets. */
module Waveform {
  import opened Common

  /** The `1e-9` guard against dividing by an empty window. */
  const Eps: real := 0.000000001
  /** The narrowest window the clamp allows (for buffers longer than this). */
  const MinViewSec: real := 0.1
  /** The floor wheel zoom asks for before the clamp raises it to `MinViewSec`. */
  const WheelMinViewSec: real := 0.05
  const WheelZoomIn: real := 0.95
  const WheelZoomOut: real := 1.05

  datatype Viewport = Viewport(start: real, dur: Option<real>)

  const FullView: Viewport := Viewport(0.0, None)

  /** A visible time window `[lo, hi]`. */
  datatype Window = Window(lo: real, hi: real)

  /** A word overlay item `(start, end, text)`. */
  datatype WordItem = WordItem(startSec: real, endSec: real, text: string)

  /** The widget's state that the model keeps: the mono samples it shows,
      their rate, the playhead, the selection overlay, the word overlay and
      the viewport. */
  datatype View = View(
    audio: Option<seq<real>>,
    sampleRate: int,
    cursor: real,
    selStart: Option<real>,
    selEnd: Option<real>,
    words: Option<seq<WordItem>>,
    port: Viewport)

  function InitialView(): View {
    View(None, 44100, 0.0, None, None, None, FullView)
  }

  /** `_duration`: samples over rate, 0 without audio or with a non-positive rate. */
  function Duration(audio: Option<seq<real>>, sampleRate: int): (d: real)
    ensures d >= 0.0
    ensures audio.None? || sampleRate <= 0 ==> d == 0.0
    ensures audio.Some? && sampleRate > 0 ==> d * sampleRate as real == |audio.value| as real
  {
    if audio.None? || sampleRate <= 0 then 0.0
    else |audio.value| as real / sampleRate as real
  }

  /** `_visible_range`. */
  function VisibleRange(dur: real, p: Viewport): (w: Window)
    ensures dur <= 0.0 ==> w == Window(0.0, 0.0)
    ensures dur > 0.0 ==> 0.0 <= w.lo <= w.hi <= dur
    ensures dur > 0.0 && (p.dur.None? || p.dur.value <= 0.0 || p.dur.value >= dur) ==> w == Window(0.0, dur)
    ensures dur > 0.0 && p.dur.Some? && 0.0 < p.dur.value < dur ==>
      w.hi - w.lo == p.dur.value && w.lo == Clip(p.start, 0.0, dur - p.dur.value)
  {
    if dur <= 0.0 then Window(0.0, 0.0)
    else if p.dur.None? || p.dur.value <= 0.0 || p.dur.value >= dur then Window(0.0, dur)
    else
      var s := Max(0.0, Min(p.start, Max(0.0, dur - p.dur.value)));
      Window(s, Min(dur, s + p.dur.value))
  }

  /** The states `_clamp_view` leaves behind: the full view, or a window of
      at least `min(0.1, dur)` and at most `dur` that lies inside the buffer. */
  predicate Settled(dur: real, p: Viewport) {
    || p == FullView
    || (&& dur > 0.0 && p.dur.Some?
        && Min(MinViewSec, dur) <= p.dur.value <= dur
        && 0.0 <= p.start <= dur - p.dur.value)
  }

  /** `_clamp_view`. */
  function ClampView(dur: real, p: Viewport): (r: Viewport)
    ensures Settled(dur, r)
    ensures dur <= 0.0 || p.dur.None? ==> r == FullView
    ensures dur > 0.0 && p.dur.Some? ==> r.dur.Some? && (p.dur.value >= Min(MinViewSec, dur) ==> r.dur.value == Min(p.dur.value, dur))
    ensures dur > 0.0 && p.dur.Some? ==>
      && r.dur.value == Max(Min(p.dur.value, dur), Min(MinViewSec, dur))
      && r.start == Clip(p.start, 0.0, dur - r.dur.value)
  {
    if dur <= 0.0 then FullView
    else if p.dur.Some? then
      var d := Max(Min(p.dur.value, dur), Min(MinViewSec, dur));
      Viewport(Max(0.0, Min(p.start, dur - d)), Some(d))
    else Viewport(0.0, None)
  }

  /** The clamp changes exactly the views that are not already settled. */
  lemma ClampViewFixedPoints(dur: real, p: Viewport)
    ensures ClampView(dur, p) == p <==> Settled(dur, p)
  {
  }

  lemma ClampViewIdempotent(dur: real, p: Viewport)
    ensures ClampView(dur, ClampView(dur, p)) == ClampView(dur, p)
  {
    ClampViewFixedPoints(dur, ClampView(dur, p));
  }

  /** A settled window is exactly what is displayed. */
  lemma SettledWindowIsVisible(dur: real, p: Viewport)
    requires Settled(dur, p) && p.dur.Some?
    ensures VisibleRange(dur, p) == Window(p.start, p.start + p.dur.value)
  {
  }

  /** `clip(x / max(1, width), 0, 1)`: how far across the widget `x` is. */
  function WidthFraction(x: real, width: int): (pos: real)
    ensures 0.0 <= pos <= 1.0
  {
    Clip(x / MaxInt(1, width) as real, 0.0, 1.0)
  }

  lemma WidthFractionMonotone(x1: real, x2: real, width: int)
    requires x1 <= x2
    ensures WidthFraction(x1, width) <= WidthFraction(x2, width)
  {
    DivLeMono(x1, x2, MaxInt(1, width) as real);
  }

  /** `_time_at_x` for a widget `width` pixels wide. */
  function TimeAtX(dur: real, sampleRate: int, p: Viewport, x: real, width: int): (t: real)
    ensures dur <= 0.0 || sampleRate <= 0 ==> t == 0.0
    ensures dur > 0.0 && sampleRate > 0 ==>
      var w := VisibleRange(dur, p);
      w.lo <= t <= w.lo + Max(Eps, w.hi - w.lo)
    ensures t >= 0.0
  {
    if dur <= 0.0 || sampleRate <= 0 then 0.0
    else
      var w := VisibleRange(dur, p);
      var span := Max(Eps, w.hi - w.lo);
      PointInSpan(w.lo, WidthFraction(x, width), span)
  }

  /** Further right is never earlier. */
  lemma TimeAtXMonotone(dur: real, sampleRate: int, p: Viewport, x1: real, x2: real, width: int)
    requires x1 <= x2
    ensures TimeAtX(dur, sampleRate, p, x1, width) <= TimeAtX(dur, sampleRate, p, x2, width)
  {
    if dur > 0.0 && sampleRate > 0 {
      WidthFractionMonotone(x1, x2, width);
      var w := VisibleRange(dur, p);
      PointInSpanMonotone(w.lo, WidthFraction(x1, width), WidthFraction(x2, width), Max(Eps, w.hi - w.lo));
    }
  }

  /** `_x_at_time`: the pixel column of time `t` in a `w`-pixel image. */
  function XAtTime(dur: real, p: Viewport, t: real, w: int): (x: int)
    ensures w >= 0 ==> 0 <= x <= w
    ensures var win := VisibleRange(dur, p); t <= win.lo ==> x == 0
    ensures var win := VisibleRange(dur, p); t - win.lo >= Max(Eps, win.hi - win.lo) ==> x == w
  {
    var win := VisibleRange(dur, p);
    PixelOf(UnitFraction(t - win.lo, Max(Eps, win.hi - win.lo)), w)
  }

  /** The time at column `x` lies the fraction `x / w` across the window. */
  lemma TimeAtColumn(dur: real, sampleRate: int, p: Viewport, x: int, w: int)
    requires dur > 0.0 && sampleRate > 0 && 1 <= w && 0 <= x <= w
    ensures var win := VisibleRange(dur, p);
      TimeAtX(dur, sampleRate, p, x as real, w) - win.lo == (x as real / w as real) * Max(Eps, win.hi - win.lo)
  {
    PixelOfColumn(x, w);
    assert WidthFraction(x as real, w) == x as real / w as real;
  }

  /** A time the fraction `f` across the window is drawn at `PixelOf(f, w)`. */
  lemma XAtFraction(dur: real, p: Viewport, t: real, f: real, w: int)
    requires 0.0 <= f <= 1.0
    requires var win := VisibleRange(dur, p); t - win.lo == f * Max(Eps, win.hi - win.lo)
    ensures XAtTime(dur, p, t, w) == PixelOf(f, w)
  {
    var win := VisibleRange(dur, p);
    var span := Max(Eps, win.hi - win.lo);
    UnitFractionAt(t - win.lo, f, span);
  }

  /** A whole pixel column mapped to a time and back lands on the same
      column: `_x_at_time` undoes `_time_at_x` on the widget's columns. */
  lemma TimeAtXRoundTrip(dur: real, sampleRate: int, p: Viewport, x: int, w: int)
    requires dur > 0.0 && sampleRate > 0 && 1 <= w && 0 <= x <= w
    ensures XAtTime(dur, p, TimeAtX(dur, sampleRate, p, x as real, w), w) == x
  {
    TimeAtColumn(dur, sampleRate, p, x, w);
    PixelOfColumn(x, w);
    XAtFraction(dur, p, TimeAtX(dur, sampleRate, p, x as real, w), x as real / w as real, w);
  }

  /** Later times never land left of earlier ones. */
  lemma XAtTimeMonotone(dur: real, p: Viewport, t1: real, t2: real, w: int)
    requires t1 <= t2 && w >= 0
    ensures XAtTime(dur, p, t1, w) <= XAtTime(dur, p, t2, w)
  {
    var win := VisibleRange(dur, p);
    var span := Max(Eps, win.hi - win.lo);
    UnitFractionMonotone(t1 - win.lo, t2 - win.lo, span);
    PixelOfMonotone(UnitFraction(t1 - win.lo, span), UnitFraction(t2 - win.lo, span), w);
  }

  // ---------------------------------------------------------------------------
  // Gestures

  /** Before a zoom or pan, a full view is pinned to an explicit window of
      the whole buffer. */
  function Anchor(dur: real, p: Viewport): (a: Viewport)
    requires dur > 0.0
    ensures a.dur.Some?
    ensures p.dur.Some? ==> a == p
    ensures p.dur.None? ==> a == Viewport(0.0, Some(dur))
    ensures VisibleRange(dur, a) == VisibleRange(dur, p)
  {
    var w := VisibleRange(dur, p);
    if p.dur.None? then Viewport(w.lo, Some(dur)) else p
  }

  /** Zoom by `factor` about the time `center`: the new width is clipped to
      `[min(floor, dur), dur]`, `center` keeps its relative place in the
      window, and the result is clamped. */
  function ZoomAround(dur: real, a: Viewport, center: real, factor: real, floor: real): (r: Viewport)
    requires a.dur.Some?
    ensures Settled(dur, r)
    ensures dur > 0.0 ==>
      r.dur.Some? && r.dur.value == Max(Clip(a.dur.value * factor, Min(floor, dur), dur), Min(MinViewSec, dur))
  {
    var nd := ZoomWidth(dur, a.dur.value, factor, floor);
    var rel := RelativePlace(center, a.start, a.dur.value);
    ClampView(dur, Viewport(center - rel * nd, Some(nd)))
  }

  /** The width a zoom asks for before the clamp. */
  function ZoomWidth(dur: real, vd: real, factor: real, floor: real): real {
    Clip(vd * factor, Min(floor, dur), dur)
  }

  /** Where `center` sits across a window, as a fraction of its width
      (with the zoom's `1e-9` guard against an empty window). */
  function RelativePlace(center: real, start: real, width: real): real {
    (center - start) / Max(Eps, width)
  }

  /** The window a zoom recentres to already fits the buffer and the
      minimum width, so the clamp leaves it alone. */
  predicate ZoomUnclamped(dur: real, a: Viewport, center: real, factor: real, floor: real)
    requires a.dur.Some?
  {
    var nd := ZoomWidth(dur, a.dur.value, factor, floor);
    Min(MinViewSec, dur) <= nd && 0.0 <= center - RelativePlace(center, a.start, a.dur.value) * nd <= dur - nd
  }

  /** A zoom keeps the zoom centre at the same relative place in the window,
      whenever the recentred window needs no clamping. */
  lemma ZoomKeepsCentre(dur: real, a: Viewport, center: real, factor: real, floor: real)
    requires dur > 0.0 && a.dur.Some?
    requires ZoomUnclamped(dur, a, center, factor, floor)
    ensures var r := ZoomAround(dur, a, center, factor, floor);
      r.dur.Some? && r.dur.value > 0.0
      && (center - r.start) / r.dur.value == RelativePlace(center, a.start, a.dur.value)
  {
    var nd := ZoomWidth(dur, a.dur.value, factor, floor);
    var rel := RelativePlace(center, a.start, a.dur.value);
    var v := Viewport(center - rel * nd, Some(nd));
    var r := ZoomAround(dur, a, center, factor, floor);
    assert r == ClampView(dur, v);
    assert nd <= dur;
    assert Settled(dur, v);
    ClampViewFixedPoints(dur, v);
    assert r == v;
    assert center - r.start == rel * nd;
    MulDivCancel(rel, nd);
  }

  /** A wheel event: pixel deltas win over angle deltas; with the zoom
      modifier it zooms about the pointer, otherwise it pans. */
  datatype WheelEvent = WheelEvent(pixelX: int, pixelY: int, angleX: int, angleY: int, zoomModifier: bool, posX: real)

  /** The horizontal delta: pixels when there are any, else the angle. */
  function DeltaX(e: WheelEvent): int {
    if e.pixelX != 0 then e.pixelX else e.angleX
  }

  /** The vertical delta: pixels when there are any, else the angle. */
  function DeltaY(e: WheelEvent): int {
    if e.pixelY != 0 then e.pixelY else e.angleY
  }

  /** The zoom step of a wheel event: in (0.95) exactly when the vertical
      delta, or the horizontal one when there is no vertical delta, is
      positive; out (1.05) otherwise, a zero delta included. */
  function WheelFactor(e: WheelEvent): (f: real)
    ensures f == WheelZoomIn || f == WheelZoomOut
    ensures f == WheelZoomIn <==> (if DeltaY(e) != 0 then DeltaY(e) else DeltaX(e)) > 0
    ensures e.pixelY > 0 ==> f == WheelZoomIn
    ensures e.pixelY == 0 && e.angleY == 0 && e.pixelX == 0 && e.angleX == 0 ==> f == WheelZoomOut
  {
    var dx := if e.pixelX != 0 then e.pixelX else e.angleX;
    var dy := if e.pixelY != 0 then e.pixelY else e.angleY;
    if (if dy != 0 then dy else dx) > 0 then WheelZoomIn else WheelZoomOut
  }

  /** The pan step in seconds for a window `vd` seconds wide: 300 trackpad
      pixels or 4000 wheel units (33 notches of 120) move one window width,
      in the delta's direction. */
  function PanStep(e: WheelEvent, vd: real): (step: real)
    ensures e.pixelX != 0 ==> step * 300.0 == e.pixelX as real * vd
    ensures e.pixelX == 0 ==> step * 4000.0 == e.angleX as real * vd
    ensures vd > 0.0 ==> (step > 0.0 <==> DeltaX(e) > 0)
    ensures vd > 0.0 ==> (step == 0.0 <==> e.pixelX == 0 && e.angleX == 0)
  {
    if e.pixelX != 0 then (e.pixelX as real / 300.0) * vd
    else (e.angleX as real / 120.0) * 0.03 * vd
  }

  /** The time a wheel zoom is about: the one under the pointer. */
  function WheelCentre(dur: real, sampleRate: int, a: Viewport, e: WheelEvent, width: int): real {
    TimeAtX(dur, sampleRate, a, e.posX, width)
  }

  /** `wheelEvent`: with the zoom modifier, the window is resized by the
      wheel factor with a 0.05 s floor; otherwise it pans by the pan step. */
  function OnWheel(dur: real, sampleRate: int, p: Viewport, e: WheelEvent, width: int): (r: Viewport)
    ensures dur <= 0.0 ==> r == p
    ensures dur > 0.0 ==> Settled(dur, r) && r.dur.Some?
    ensures dur > 0.0 && e.zoomModifier ==>
      var vd := Anchor(dur, p).dur.value;
      r.dur.value == Max(Clip(vd * WheelFactor(e), Min(WheelMinViewSec, dur), dur), Min(MinViewSec, dur))
  {
    if dur <= 0.0 then p
    else
      var a := Anchor(dur, p);
      if e.zoomModifier then
        ZoomAround(dur, a, WheelCentre(dur, sampleRate, a, e, width), WheelFactor(e), WheelMinViewSec)
      else
        ClampView(dur, Viewport(a.start - PanStep(e, a.dur.value), a.dur))
  }

  /** Wheel zoom asks for a 0.05 s floor, but the clamp raises it: no wheel
      zoom ever shows less than `min(0.1, dur)`. */
  lemma WheelZoomFloorIsClampFloor(dur: real, sampleRate: int, p: Viewport, e: WheelEvent, width: int)
    requires dur > 0.0 && e.zoomModifier
    ensures OnWheel(dur, sampleRate, p, e, width).dur.value >= Min(MinViewSec, dur)
  {
  }

  /** From a settled view, scrolling towards zoom-in never widens the window
      and towards zoom-out never narrows it. */
  lemma WheelZoomDirection(dur: real, sampleRate: int, p: Viewport, e: WheelEvent, width: int)
    requires dur > 0.0 && e.zoomModifier && Settled(dur, p)
    ensures var r := OnWheel(dur, sampleRate, p, e, width);
      var before := Anchor(dur, p).dur.value;
      (WheelFactor(e) == WheelZoomIn ==> r.dur.value <= before)
      && (WheelFactor(e) == WheelZoomOut ==> r.dur.value >= before)
  {
    var a := Anchor(dur, p);
    var vd := a.dur.value;
    assert Min(MinViewSec, dur) <= vd <= dur;
    assert vd * WheelZoomIn <= vd;
    assert vd * WheelZoomOut >= vd;
  }

  /** A wheel zoom keeps the time under the pointer at the same relative
      place in the window, whenever the recentred window needs no clamping. */
  lemma WheelZoomKeepsPointer(dur: real, sampleRate: int, p: Viewport, e: WheelEvent, width: int)
    requires dur > 0.0 && e.zoomModifier
    requires var a := Anchor(dur, p);
      ZoomUnclamped(dur, a, WheelCentre(dur, sampleRate, a, e, width), WheelFactor(e), WheelMinViewSec)
    ensures var a := Anchor(dur, p);
      var c := WheelCentre(dur, sampleRate, a, e, width);
      var r := OnWheel(dur, sampleRate, p, e, width);
      r.dur.value > 0.0 && (c - r.start) / r.dur.value == RelativePlace(c, a.start, a.dur.value)
  {
    var a := Anchor(dur, p);
    var c := WheelCentre(dur, sampleRate, a, e, width);
    assert OnWheel(dur, sampleRate, p, e, width) == ZoomAround(dur, a, c, WheelFactor(e), WheelMinViewSec);
    ZoomKeepsCentre(dur, a, c, WheelFactor(e), WheelMinViewSec);
  }

  /** Panning a settled view keeps its width: it only slides. */
  lemma WheelPanKeepsWidth(dur: real, sampleRate: int, p: Viewport, e: WheelEvent, width: int)
    requires dur > 0.0 && !e.zoomModifier && Settled(dur, p)
    ensures OnWheel(dur, sampleRate, p, e, width).dur == Anchor(dur, p).dur
  {
  }

  /** Panning a settled view moves its start back by the pan step, stopping
      at either end of the buffer. */
  lemma WheelPanSlides(dur: real, sampleRate: int, p: Viewport, e: WheelEvent, width: int)
    requires dur > 0.0 && !e.zoomModifier && Settled(dur, p)
    ensures var a := Anchor(dur, p);
      var vd := a.dur.value;
      OnWheel(dur, sampleRate, p, e, width).start == Clip(a.start - PanStep(e, vd), 0.0, dur - vd)
  {
  }

  /** The zoom factor of a pinch: `1 / scale`, a non-positive scale
      counting as 1; spreading the fingers (scale above 1) zooms in. */
  function PinchFactor(scale: real): (f: real)
    ensures f > 0.0
    ensures scale > 0.0 ==> f * scale == 1.0
    ensures scale <= 0.0 ==> f == 1.0
    ensures scale >= 1.0 ==> f <= 1.0
    ensures 0.0 < scale <= 1.0 ==> f >= 1.0
  {
    if scale <= 0.0 then 1.0
    else
      if scale <= 1.0 then MulLeDiv(1.0, 1.0, scale); 1.0 / scale
      else 1.0 / scale
  }

  /** The time a pinch zooms about: the one under the gesture centre, or
      under the widget's middle when the gesture has none. */
  function PinchCentre(dur: real, sampleRate: int, a: Viewport, center: Option<real>, width: int): real {
    TimeAtX(dur, sampleRate, a, center.GetOr(width as real / 2.0), width)
  }

  /** The pinch handler, as a zoom by `1 / scale` about the gesture centre
      (the widget's middle when the gesture has none), with a 0.1 s floor. */
  function OnPinch(dur: real, sampleRate: int, p: Viewport, scale: real, center: Option<real>, width: int): (r: Viewport)
    ensures dur <= 0.0 ==> r == p
    ensures dur > 0.0 ==> Settled(dur, r) && r.dur.Some?
    ensures dur > 0.0 ==>
      var vd := Anchor(dur, p).dur.value;
      r.dur.value == Clip(vd * PinchFactor(scale), Min(MinViewSec, dur), dur)
  {
    if dur <= 0.0 then p
    else
      var a := Anchor(dur, p);
      ZoomAround(dur, a, PinchCentre(dur, sampleRate, a, center, width), PinchFactor(scale), MinViewSec)
  }

  /** A pinch keeps the time under the gesture centre at the same relative
      place in the window, whenever the recentred window needs no clamping. */
  lemma PinchKeepsCentre(dur: real, sampleRate: int, p: Viewport, scale: real, center: Option<real>, width: int)
    requires dur > 0.0
    requires var a := Anchor(dur, p);
      ZoomUnclamped(dur, a, PinchCentre(dur, sampleRate, a, center, width), PinchFactor(scale), MinViewSec)
    ensures var a := Anchor(dur, p);
      var c := PinchCentre(dur, sampleRate, a, center, width);
      var r := OnPinch(dur, sampleRate, p, scale, center, width);
      r.dur.value > 0.0 && (c - r.start) / r.dur.value == RelativePlace(c, a.start, a.dur.value)
  {
    var a := Anchor(dur, p);
    var c := PinchCentre(dur, sampleRate, a, center, width);
    assert OnPinch(dur, sampleRate, p, scale, center, width) == ZoomAround(dur, a, c, PinchFactor(scale), MinViewSec);
    ZoomKeepsCentre(dur, a, c, PinchFactor(scale), MinViewSec);
  }

  /** Scaling a width inside `[lo, hi]` by at most 1 and clipping back
      never widens it; by at least 1, never narrows it. */
  lemma ClippedScaleDirection(vd: real, f: real, lo: real, hi: real)
    requires 0.0 <= lo <= vd <= hi && f > 0.0
    ensures f <= 1.0 ==> Clip(vd * f, lo, hi) <= vd
    ensures f >= 1.0 ==> Clip(vd * f, lo, hi) >= vd
  {
    if f <= 1.0 {
      MulLeMono(f, 1.0, vd);
    }
    if f >= 1.0 {
      MulLeMono(1.0, f, vd);
    }
  }

  /** A zoom by at most 1 never widens a settled window, and by at least 1
      never narrows it. */
  lemma ZoomAroundDirection(dur: real, a: Viewport, center: real, factor: real, floor: real)
    requires dur > 0.0 && a.dur.Some? && Min(MinViewSec, dur) <= a.dur.value <= dur
    requires factor > 0.0 && 0.0 <= floor <= MinViewSec
    ensures factor <= 1.0 ==> ZoomAround(dur, a, center, factor, floor).dur.value <= a.dur.value
    ensures factor >= 1.0 ==> ZoomAround(dur, a, center, factor, floor).dur.value >= a.dur.value
  {
    var lo := Min(floor, dur);
    ClippedScaleDirection(a.dur.value, factor, lo, dur);
  }

  /** From a settled view, spreading the fingers never widens the window and
      pinching them together never narrows it. */
  lemma PinchZoomDirection(dur: real, sampleRate: int, p: Viewport, scale: real, center: Option<real>, width: int)
    requires dur > 0.0 && Settled(dur, p)
    ensures var r := OnPinch(dur, sampleRate, p, scale, center, width);
      var before := Anchor(dur, p).dur.value;
      (scale >= 1.0 ==> r.dur.value <= before)
      && (0.0 < scale <= 1.0 ==> r.dur.value >= before)
  {
    var a := Anchor(dur, p);
    var c := PinchCentre(dur, sampleRate, a, center, width);
    assert OnPinch(dur, sampleRate, p, scale, center, width) == ZoomAround(dur, a, c, PinchFactor(scale), MinViewSec);
    ZoomAroundDirection(dur, a, c, PinchFactor(scale), MinViewSec);
  }

  /** Zooming by 0.5 about 5 s on a 10 s window of a 20 s buffer gives the
      5 s window starting at 2.5 s. */
  lemma ZoomScenario()
    ensures ZoomAround(20.0, Viewport(0.0, Some(10.0)), 5.0, 0.5, WheelMinViewSec) == Viewport(2.5, Some(5.0))
  {
  }

  datatype Gesture =
    | Wheel(event: WheelEvent)
    | Pinch(scale: real, center: Option<real>)
    | DoubleClick

  /** One viewport gesture; a double-click resets to the full view. */
  function ApplyGesture(dur: real, sampleRate: int, p: Viewport, g: Gesture, width: int): Viewport {
    match g
    case Wheel(e) => OnWheel(dur, sampleRate, p, e, width)
    case Pinch(s, c) => OnPinch(dur, sampleRate, p, s, c, width)
    case DoubleClick => FullView
  }

  function ApplyGestures(dur: real, sampleRate: int, p: Viewport, gs: seq<Gesture>, width: int): Viewport
    decreases |gs|
  {
    if |gs| == 0 then p
    else ApplyGestures(dur, sampleRate, ApplyGesture(dur, sampleRate, p, gs[0], width), gs[1..], width)
  }

  /** Any run of zooms, pans and resets from a settled view ends settled:
      `0 <= start` and `start + dur <= total` whenever a window is set. */
  lemma {:induction false} GesturesKeepViewSettled(dur: real, sampleRate: int, p: Viewport, gs: seq<Gesture>, width: int)
    requires Settled(dur, p)
    ensures var r := ApplyGestures(dur, sampleRate, p, gs, width);
      Settled(dur, r) && (r.dur.Some? ==> 0.0 <= r.start && r.start + r.dur.value <= dur)
    decreases |gs|
  {
    if |gs| > 0 {
      var p1 := ApplyGesture(dur, sampleRate, p, gs[0], width);
      assert Settled(dur, p1);
      GesturesKeepViewSettled(dur, sampleRate, p1, gs[1..], width);
    }
  }

  // ---------------------------------------------------------------------------
  // Widget resets

  /** `set_audio`: shows the (first channel of the) new buffer, puts the
      playhead at 0, drops the selection and fits the whole duration. */
  function SetAudio(v: View, samples: seq<real>, sampleRate: int): (v': View)
    ensures v'.audio == Some(samples) && v'.sampleRate == sampleRate
    ensures v'.cursor == 0.0 && v'.selStart.None? && v'.selEnd.None?
    ensures v'.port == FullView && Settled(Duration(v'.audio, v'.sampleRate), v'.port)
    ensures v'.words == v.words
  {
    View(Some(samples), sampleRate, 0.0, None, None, v.words, FullView)
  }

  /** `set_cursor_time`: the playhead never goes before 0. */
  function SetCursorTime(v: View, t: real): (v': View)
    ensures v'.cursor >= 0.0 && (t >= 0.0 ==> v'.cursor == t) && (t < 0.0 ==> v'.cursor == 0.0)
    ensures v' == v.(cursor := v'.cursor)
  {
    v.(cursor := Max(0.0, t))
  }

  /** `mouseDoubleClickEvent`: only the viewport is reset. */
  function OnDoubleClick(v: View): (v': View)
    ensures v'.port == FullView
    ensures v' == v.(port := FullView)
  {
    v.(port := FullView)
  }

  /** `set_selection`: only the selection overlay changes. */
  function SetSelection(v: View, s: Option<real>, e: Option<real>): (v': View)
    ensures v'.selStart == s && v'.selEnd == e
    ensures v'.(selStart := v.selStart, selEnd := v.selEnd) == v
  {
    v.(selStart := s, selEnd := e)
  }

  /** `set_transcript`: only the word overlay changes. */
  function SetTranscript(v: View, words: seq<WordItem>): (v': View)
    ensures v'.words == Some(words)
    ensures v'.(words := v.words) == v
  {
    v.(words := Some(words))
  }
}

=== FILE: waveform_render.dfy ===
/** What the waveform painter computes before it draws: the time-axis tick
    step and tick times, the word labels that survive collision avoidance,
    and the max-absolute envelope of the visible samples. */
module WaveformRender {
  import opened Common
  import opened Waveform

  // ---------------------------------------------------------------------------
  // Time axis

  const TickCandidates: seq<real> := [0.5, 1.0, 2.0, 5.0, 10.0, 15.0, 30.0, 60.0, 120.0, 300.0]
  const TargetTickPx: real := 100.0
  /** Ticks up to this far past the window's end are still drawn. */
  const TickSlack: real := 0.000001

  /** Pixels per second for a `w`-pixel image of a window. */
  function PxPerSec(w: int, win: Window): real {
    w as real / Max(Eps, win.hi - win.lo)
  }

  predicate TickFits(step: real, pxPerSec: real) {
    step * pxPerSec >= TargetTickPx
  }

  /** The tick step for a `w`-pixel image of the window `win`: the first
      candidate whose ticks are at least 100 px apart, or the largest
      candidate when none is. */
  method TickStep(w: int, win: Window) returns (step: real)
    ensures step in TickCandidates
    ensures var pxPerSec := PxPerSec(w, win);
      TickFits(step, pxPerSec) || (step == 300.0 && forall j :: 0 <= j < |TickCandidates| ==> !TickFits(TickCandidates[j], pxPerSec))
    ensures forall j :: 0 <= j < |TickCandidates| && TickCandidates[j] < step ==> !TickFits(TickCandidates[j], PxPerSec(w, win))
  {
    var pxPerSec := PxPerSec(w, win);
    var cs := TickCandidates;
    step := cs[|cs| - 1];
    var i := 0;
    while i < |cs|
      invariant 0 <= i <= |cs|
      invariant forall j :: 0 <= j < i ==> !TickFits(cs[j], pxPerSec)
    {
      if TickFits(cs[i], pxPerSec) {
        step := cs[i];
        assert forall j :: 0 <= j < |cs| && cs[j] < cs[i] ==> j < i;
        return;
      }
      i := i + 1;
    }
  }

  /** The first tick: the first multiple of `step` at or after `lo`, not before 0. */
  function FirstTick(lo: real, step: real): real
    requires step > 0.0
  {
    Max(0.0, Ceil(lo / step) as real * step)
  }

  /** The tick times of `_draw_time_axis`: `FirstTick`, then every `step`,
      while not past `hi` (with a 1e-6 s slack). */
  method TickTimes(lo: real, hi: real, step: real) returns (ticks: seq<real>)
    requires step > 0.0
    ensures forall i :: 0 <= i < |ticks| ==> ticks[i] == FirstTick(lo, step) + i as real * step
    ensures forall i :: 0 <= i < |ticks| ==> lo <= ticks[i] <= hi + TickSlack && ticks[i] >= 0.0
    ensures FirstTick(lo, step) + |ticks| as real * step > hi + TickSlack
  {
    var t0 := FirstTick(lo, step);
    FirstTickBounds(lo, step);
    var limit := hi + TickSlack;
    ghost var bound: int := if t0 <= limit then ((limit - t0) / step).Floor + 1 else 0;
    ticks := [];
    var t := t0;
    var i := 0;
    while t <= limit
      invariant 0 <= i && |ticks| == i
      invariant t == t0 + i as real * step
      invariant forall k :: 0 <= k < i ==> ticks[k] == t0 + k as real * step
      invariant forall k :: 0 <= k < i ==> lo <= ticks[k] <= limit && ticks[k] >= 0.0
      invariant i <= bound
      decreases bound - i
    {
      TickCountBound(t0, limit, step, i);
      MulLeMono(0.0, i as real, step);
      ticks := ticks + [t];
      t := t + step;
      i := i + 1;
    }
  }

  lemma FirstTickBounds(lo: real, step: real)
    requires step > 0.0
    ensures FirstTick(lo, step) >= lo && FirstTick(lo, step) >= 0.0
  {
    var c := Ceil(lo / step) as real;
    MulLeMono(lo / step, c, step);
    assert lo / step * step == lo;
  }

  lemma TickCountBound(t0: real, limit: real, step: real, i: nat)
    requires step > 0.0 && t0 + i as real * step <= limit
    ensures t0 <= limit && i < ((limit - t0) / step).Floor + 1
  {
    MulLeMono(0.0, i as real, step);
    MulLeDiv(i as real, limit - t0, step);
  }

  /** `fmt`: a tick label as whole minutes and seconds of `int(t)`. */
  function TickLabel(t: real): (ms: (int, int))
    ensures 0 <= ms.1 < 60
    ensures ms.0 * 60 + ms.1 == TruncToZero(t)
    ensures t >= 0.0 ==> ms.0 >= 0
  {
    var n := TruncToZero(t);
    (n / 60, n % 60)
  }

  // ---------------------------------------------------------------------------
  // Word labels

  const MinLabelGapPx: real := 40.0
  /** The "previous label" position before any label is drawn. */
  const NoLabelX: real := -1000000000.0

  /** A drawn word label: which word, its pixel column, and whether it is
      highlighted as part of the selection. */
  datatype Label = Label(index: nat, x: int, highlighted: bool)

  /** A word touches the visible window. */
  predicate WordVisible(item: WordItem, win: Window) {
    !(item.endSec < win.lo || item.startSec > win.hi)
  }

  /** A word overlaps the selection `[min(s, e), max(s, e))`. */
  predicate InSelection(item: WordItem, selStart: Option<real>, selEnd: Option<real>) {
    selStart.Some? && selEnd.Some?
    && !(item.endSec <= Min(selStart.value, selEnd.value) || item.startSec >= Max(selStart.value, selEnd.value))
  }

  function LabelIndices(labels: seq<Label>): set<nat> {
    set k | 0 <= k < |labels| :: labels[k].index
  }

  /** The column of the last label drawn for a word before word `i`. */
  function LastXBefore(labels: seq<Label>, i: nat): real
    decreases |labels|
  {
    if |labels| == 0 then NoLabelX
    else if labels[|labels| - 1].index < i then labels[|labels| - 1].x as real
    else LastXBefore(labels[..|labels| - 1], i)
  }

  /** Word `item` gets a label when it is visible and starts at least 40 px
      right of the last label drawn (`lastX`). */
  predicate Drawable(item: WordItem, dur: real, p: Viewport, w: int, lastX: real) {
    && WordVisible(item, VisibleRange(dur, p))
    && XAtTime(dur, p, item.startSec, w) as real - lastX >= MinLabelGapPx
  }

  /** A label describes its word truthfully. */
  predicate LabelOf(words: seq<WordItem>, dur: real, p: Viewport, w: int,
                    selStart: Option<real>, selEnd: Option<real>, l: Label) {
    && l.index < |words|
    && WordVisible(words[l.index], VisibleRange(dur, p))
    && l.x == XAtTime(dur, p, words[l.index].startSec, w)
    && (l.highlighted <==> InSelection(words[l.index], selStart, selEnd))
  }

  /** Labels run in word order, successive ones at least 40 px apart. */
  predicate Spaced(labels: seq<Label>) {
    forall k :: 0 <= k < |labels| - 1 ==>
      labels[k].index < labels[k + 1].index && labels[k + 1].x as real - labels[k].x as real >= MinLabelGapPx
  }

  /** Every label describes its word truthfully. */
  predicate AllLabelOf(words: seq<WordItem>, dur: real, p: Viewport, w: int,
                       selStart: Option<real>, selEnd: Option<real>, labels: seq<Label>) {
    forall k :: 0 <= k < |labels| ==> LabelOf(words, dur, p, w, selStart, selEnd, labels[k])
  }

  /** Every label is for a word before word `i`. */
  predicate IndicesBelow(labels: seq<Label>, i: nat) {
    forall k :: 0 <= k < |labels| ==> labels[k].index < i
  }

  /** Among the first `i` words, exactly the drawable ones were labelled. */
  predicate FirstFit(words: seq<WordItem>, dur: real, p: Viewport, w: int, labels: seq<Label>, i: nat)
    requires i <= |words|
  {
    forall j :: 0 <= j < i ==>
      (j in LabelIndices(labels) <==> Drawable(words[j], dur, p, w, LastXBefore(labels, j)))
  }

  /** `_draw_words`: walking the words in order, a visible word gets a label
      exactly when it starts at least 40 px right of the last label drawn. */
  method WordLabels(items: Option<seq<WordItem>>, dur: real, p: Viewport, w: int,
                    selStart: Option<real>, selEnd: Option<real>) returns (labels: seq<Label>)
    ensures items.None? || |items.value| == 0 ==> labels == []
    ensures items.Some? ==> forall k :: 0 <= k < |labels| ==> LabelOf(items.value, dur, p, w, selStart, selEnd, labels[k])
    ensures Spaced(labels)
    ensures items.Some? ==> FirstFit(items.value, dur, p, w, labels, |items.value|)
  {
    labels := [];
    if items.None? || |items.value| == 0 {
      return;
    }
    var words := items.value;
    var lastX := NoLabelX;
    var i := 0;
    while i < |words|
      invariant 0 <= i <= |words|
      invariant lastX == LastXBefore(labels, i)
      invariant IndicesBelow(labels, i)
      invariant AllLabelOf(words, dur, p, w, selStart, selEnd, labels)
      invariant Spaced(labels)
      invariant FirstFit(words, dur, p, w, labels, i)
    {
      if Drawable(words[i], dur, p, w, lastX) {
        var l := Label(i, XAtTime(dur, p, words[i].startSec, w), InSelection(words[i], selStart, selEnd));
        DrawStep(words, dur, p, w, selStart, selEnd, labels, i, l);
        labels := labels + [l];
        lastX := l.x as real;
      } else {
        SkipStep(words, dur, p, w, labels, i);
      }
      i := i + 1;
    }
  }

  /** Labelling a drawable word keeps every loop fact. */
  lemma DrawStep(words: seq<WordItem>, dur: real, p: Viewport, w: int, selStart: Option<real>, selEnd: Option<real>,
                 labels: seq<Label>, i: nat, l: Label)
    requires i < |words| && l.index == i
    requires IndicesBelow(labels, i) && AllLabelOf(words, dur, p, w, selStart, selEnd, labels)
    requires Spaced(labels) && FirstFit(words, dur, p, w, labels, i)
    requires l.x == XAtTime(dur, p, words[i].startSec, w)
    requires l.highlighted == InSelection(words[i], selStart, selEnd)
    requires Drawable(words[i], dur, p, w, LastXBefore(labels, i))
    ensures Spaced(labels + [l])
    ensures FirstFit(words, dur, p, w, labels + [l], i + 1)
    ensures LastXBefore(labels + [l], i + 1) == l.x as real
    ensures IndicesBelow(labels + [l], i + 1)
    ensures AllLabelOf(words, dur, p, w, selStart, selEnd, labels + [l])
  {
    LastXBeforeExtend(labels, l, i + 1);
    DrawKeepsSpaced(words, dur, p, w, labels, i, l);
    DrawKeepsFirstFit(words, dur, p, w, labels, i, l);
    DrawKeepsLabels(words, dur, p, w, selStart, selEnd, labels, i, l);
  }

  lemma DrawKeepsSpaced(words: seq<WordItem>, dur: real, p: Viewport, w: int, labels: seq<Label>, i: nat, l: Label)
    requires i < |words| && l.index == i
    requires IndicesBelow(labels, i) && Spaced(labels)
    requires l.x == XAtTime(dur, p, words[i].startSec, w)
    requires Drawable(words[i], dur, p, w, LastXBefore(labels, i))
    ensures Spaced(labels + [l])
  {
    if |labels| > 0 {
      LastXBeforeLast(labels, i);
    }
  }

  lemma DrawKeepsFirstFit(words: seq<WordItem>, dur: real, p: Viewport, w: int, labels: seq<Label>, i: nat, l: Label)
    requires i < |words| && l.index == i
    requires IndicesBelow(labels, i) && FirstFit(words, dur, p, w, labels, i)
    requires Drawable(words[i], dur, p, w, LastXBefore(labels, i))
    ensures FirstFit(words, dur, p, w, labels + [l], i + 1)
  {
    var next := labels + [l];
    LabelIndicesSnoc(labels, l);
    forall j | 0 <= j < i + 1
      ensures j in LabelIndices(next) <==> Drawable(words[j], dur, p, w, LastXBefore(next, j))
    {
      LastXBeforeExtend(labels, l, j);
      if j < i {
        assert j in LabelIndices(next) <==> j in LabelIndices(labels);
      } else {
        assert j in LabelIndices(next);
      }
    }
  }

  lemma LabelIndicesSnoc(labels: seq<Label>, l: Label)
    ensures LabelIndices(labels + [l]) == LabelIndices(labels) + {l.index}
  {
    var next := labels + [l];
    assert forall k :: 0 <= k < |labels| ==> next[k] == labels[k];
    assert next[|labels|] == l;
  }

  lemma DrawKeepsLabels(words: seq<WordItem>, dur: real, p: Viewport, w: int, selStart: Option<real>, selEnd: Option<real>,
                        labels: seq<Label>, i: nat, l: Label)
    requires i < |words| && l.index == i
    requires IndicesBelow(labels, i) && AllLabelOf(words, dur, p, w, selStart, selEnd, labels)
    requires l.x == XAtTime(dur, p, words[i].startSec, w)
    requires l.highlighted == InSelection(words[i], selStart, selEnd)
    requires Drawable(words[i], dur, p, w, LastXBefore(labels, i))
    ensures IndicesBelow(labels + [l], i + 1)
    ensures AllLabelOf(words, dur, p, w, selStart, selEnd, labels + [l])
  {
    var next := labels + [l];
    assert LabelOf(words, dur, p, w, selStart, selEnd, l);
    assert forall k :: 0 <= k < |labels| ==> next[k] == labels[k];
  }

  /** Passing over a word that is not drawable keeps every loop fact. */
  lemma SkipStep(words: seq<WordItem>, dur: real, p: Viewport, w: int, labels: seq<Label>, i: nat)
    requires i < |words|
    requires IndicesBelow(labels, i)
    requires FirstFit(words, dur, p, w, labels, i)
    requires !Drawable(words[i], dur, p, w, LastXBefore(labels, i))
    ensures FirstFit(words, dur, p, w, labels, i + 1)
    ensures LastXBefore(labels, i + 1) == LastXBefore(labels, i)
    ensures IndicesBelow(labels, i + 1)
  {
    LastXBeforeStable(labels, i);
    assert i !in LabelIndices(labels);
  }

  /** Appending a label for word `n` leaves the "last label before" of words
      up to `n` unchanged and makes it the last label for later words. */
  lemma LastXBeforeExtend(labels: seq<Label>, l: Label, j: nat)
    requires forall k :: 0 <= k < |labels| ==> labels[k].index < l.index
    ensures j <= l.index ==> LastXBefore(labels + [l], j) == LastXBefore(labels, j)
    ensures j > l.index ==> LastXBefore(labels + [l], j) == l.x as real
  {
    assert (labels + [l])[..|labels|] == labels;
  }

  /** With every label before word `i`, stepping past `i` changes nothing. */
  lemma LastXBeforeStable(labels: seq<Label>, i: nat)
    requires forall k :: 0 <= k < |labels| ==> labels[k].index < i
    ensures LastXBefore(labels, i + 1) == LastXBefore(labels, i)
  {
  }

  lemma LastXBeforeLast(labels: seq<Label>, i: nat)
    requires |labels| > 0 && labels[|labels| - 1].index < i
    ensures LastXBefore(labels, i) == labels[|labels| - 1].x as real
  {
  }

  // ---------------------------------------------------------------------------
  // Envelope

  /** The largest absolute sample of a non-empty bucket. */
  function MaxAbs(xs: seq<real>): (m: real)
    requires |xs| > 0
    ensures forall k :: 0 <= k < |xs| ==> Abs(xs[k]) <= m
    ensures exists k :: 0 <= k < |xs| && m == Abs(xs[k])
    decreases |xs|
  {
    if |xs| == 1 then Abs(xs[0])
    else
      var rest := MaxAbs(xs[1..]);
      assert forall k :: 1 <= k < |xs| ==> xs[k] == xs[1..][k - 1];
      Max(Abs(xs[0]), rest)
  }

  /** The sample index range `audio[int(lo * sr) : int(hi * sr)]` with
      Python's slice clamping. */
  function EnvelopeSlice(n: nat, sampleRate: int, win: Window): (b: (nat, nat))
    requires win.lo >= 0.0 && win.hi >= 0.0 && sampleRate > 0
    ensures b.0 <= b.1 <= n
    ensures b.0 == MinInt(TruncToZero(win.lo * sampleRate as real), n)
    ensures b.1 == MaxInt(b.0, MinInt(TruncToZero(win.hi * sampleRate as real), n))
  {
    MulLeMono(0.0, win.lo, sampleRate as real);
    MulLeMono(0.0, win.hi, sampleRate as real);
    var s := MinInt(TruncToZero(win.lo * sampleRate as real), n);
    var e := MaxInt(s, MinInt(TruncToZero(win.hi * sampleRate as real), n));
    (s, e)
  }

  /** `m` is the size of one of the samples `audio[lo..hi]`. */
  ghost predicate VisibleBar(audio: seq<real>, lo: nat, hi: nat, m: real)
    requires lo <= hi <= |audio|
  {
    m >= 0.0 && exists k :: lo <= k < hi && m == Abs(audio[k])
  }

  /** How many bars `Buckets` draws for `n` samples in `w` columns. */
  lemma BarCount(n: nat, w: int, count: nat)
    requires var size := BucketSize(n, w); count * size <= n < (count + 1) * size
    ensures n < MaxInt(1, w) ==> count == n
    ensures 1 <= w <= n ==> w <= count
  {
    var size := BucketSize(n, w);
    if n < MaxInt(1, w) {
      assert size == 1;
    }
    if 1 <= w <= n {
      assert size == n / w;
      BucketCover(n, w);
      if count < w {
        MulIntLeMono(count + 1, w, size);
      }
    }
  }

  /** A bucket's bar is the size of a sample of the slice. */
  lemma BucketMaxVisible(audio: seq<real>, base: nat, size: nat, i: nat, end: nat)
    requires size >= 1 && base <= end <= |audio| && BucketInSlice(end - base, size, i)
    ensures VisibleBar(audio, base, end, BucketMax(audio, base, size, i, end))
  {
    var m := BucketMax(audio, base, size, i, end);
    var lo := base + i * size;
    var hi := base + (i + 1) * size;
    assert lo >= base && hi <= end;
    var k :| lo <= k < hi && m == Abs(audio[k]);
    assert base <= k < end && m >= 0.0;
  }

  /** Every bar of the buckets of `audio[lo..hi]` is the size of a sample there. */
  lemma BarsAreVisible(audio: seq<real>, lo: nat, hi: nat, size: nat)
    requires lo <= hi <= |audio| && size >= 1
    ensures var env := Buckets(audio, lo, hi, size);
      forall i :: 0 <= i < |env| ==> VisibleBar(audio, lo, hi, env[i])
  {
    var env := Buckets(audio, lo, hi, size);
    forall i | 0 <= i < |env|
      ensures VisibleBar(audio, lo, hi, env[i])
    {
      assert BucketInSlice(hi - lo, size, i) && env[i] == BucketMax(audio, lo, size, i, hi);
      BucketMaxVisible(audio, lo, size, i, hi);
    }
  }

  /** Samples per envelope bar for `n` visible samples in `w` pixels. */
  function BucketSize(n: nat, w: int): (b: nat)
    ensures b >= 1
  {
    MaxInt(1, n / MaxInt(1, w))
  }

  /** `_draw_envelope`: one bar per whole bucket of the visible samples (a
      trailing partial bucket is dropped), each the bucket's max |sample|.
      With fewer visible samples than columns every sample gets its own bar;
      otherwise every column gets at least one. Each bar is the size of some
      visible sample. */
  function Envelope(audio: seq<real>, sampleRate: int, p: Viewport, w: int): (env: seq<real>)
    ensures Duration(Some(audio), sampleRate) <= 0.0 ==> env == []
    ensures Duration(Some(audio), sampleRate) > 0.0 ==>
      var b := EnvelopeSlice(|audio|, sampleRate, VisibleRange(Duration(Some(audio), sampleRate), p));
      env == Buckets(audio, b.0, b.1, BucketSize(b.1 - b.0, w))
    ensures Duration(Some(audio), sampleRate) > 0.0 ==>
      var b := EnvelopeSlice(|audio|, sampleRate, VisibleRange(Duration(Some(audio), sampleRate), p));
      && (b.1 - b.0 < MaxInt(1, w) ==> |env| == b.1 - b.0)
      && (1 <= w <= b.1 - b.0 ==> w <= |env|)
      && (forall i :: 0 <= i < |env| ==> VisibleBar(audio, b.0, b.1, env[i]))
  {
    var dur := Duration(Some(audio), sampleRate);
    if dur <= 0.0 then []
    else
      var b := EnvelopeSlice(|audio|, sampleRate, VisibleRange(dur, p));
      var size := BucketSize(b.1 - b.0, w);
      var env := Buckets(audio, b.0, b.1, size);
      BarCount(b.1 - b.0, w, |env|);
      BarsAreVisible(audio, b.0, b.1, size);
      env
  }

  /** The whole buckets of `audio[lo..hi]`, reduced to their max |sample|. */
  function Buckets(audio: seq<real>, lo: nat, hi: nat, size: nat): (env: seq<real>)
    requires lo <= hi <= |audio| && size >= 1
    ensures |env| * size <= hi - lo < (|env| + 1) * size
    ensures forall i :: 0 <= i < |env| ==> BucketInSlice(hi - lo, size, i) && env[i] == BucketMax(audio, lo, size, i, hi)
  {
    var count := (hi - lo) / size;
    BucketCover(hi - lo, size);
    AllBucketsInSlice(hi - lo, size);
    seq(count, i requires 0 <= i < count => BucketMax(audio, lo, size, i, hi))
  }

  /** Bucket `i` of size `size` lies inside a slice of `n` samples. */
  predicate BucketInSlice(n: nat, size: nat, i: nat) {
    (i + 1) * size <= n
  }

  lemma AllBucketsInSlice(n: nat, size: nat)
    requires size >= 1
    ensures forall i :: 0 <= i < n / size ==> BucketInSlice(n, size, i)
  {
    forall i | 0 <= i < n / size
      ensures BucketInSlice(n, size, i)
    {
      MulIntLeMono(i + 1, n / size, size);
    }
  }

  /** The max |sample| of bucket `i` of the slice `audio[base..end]`. */
  function BucketMax(audio: seq<real>, base: nat, size: nat, i: nat, end: nat): (m: real)
    requires size >= 1 && base <= end <= |audio| && BucketInSlice(end - base, size, i)
    ensures m >= 0.0
    ensures forall k :: base + i * size <= k < base + (i + 1) * size ==> Abs(audio[k]) <= m
    ensures exists k :: base + i * size <= k < base + (i + 1) * size && m == Abs(audio[k])
  {
    var lo := base + i * size;
    assert (i + 1) * size == i * size + size;
    var bucket := audio[lo..lo + size];
    assert forall k :: lo <= k < lo + size ==> audio[k] == bucket[k - lo];
    var m := MaxAbs(bucket);
    var k0 :| 0 <= k0 < |bucket| && m == Abs(bucket[k0]);
    assert audio[lo + k0] == bucket[k0];
    m
  }

  lemma BucketCover(n: nat, size: nat)
    requires size >= 1
    ensures (n / size) * size <= n < (n / size + 1) * size
  {
  }

  lemma MulIntLeMono(a: int, b: int, c: nat)
    requires a <= b
    ensures a * c <= b * c
  {
  }
}
